=== FILE: README.md ===
# Travel search: session, search forms and backend reshaping

A Dafny model of the sequential logic in a flight-and-hotel search app:

- **Auth**: the client session. It covers three durable storage slots (`accessToken`, `refreshToken`, `user`) and the in-memory user. The request interceptor attaches `Bearer <token>`. The response interceptor reacts to a first 401 by refreshing once and replaying the request once, guarded by the request's own `_retry` flag. Also modelled: `login`, `register`, `logout` and the start-up verify check.
- **FlightSearch** and **HotelSearch**: the search forms. This covers:
  - suggestion lookups and the `"<city or name> (<code>)"` display text;
  - reading IATA codes back out with `/\(([A-Z]{3})\)/`;
  - the required-field and date-order checks and the request each form sends;
  - `formatDuration`, the stops label, the flight-to-hotel hand-off and the night count.
- **Backend**: the three Express endpoints. Each returns its 400 validation reply, the query it sends to the Amadeus SDK, and the reshaped answer or the 500 reply.

Supporting modules model the JavaScript runtime pieces the code relies on:

- `JsValues`: missing values and string truthiness.
- `Text`: `String(n)`, `parseInt` and `String.prototype.replace` with a string pattern.
- `Seqs`: `Array.prototype.filter`.
- `LocationText`: the regular-expression match.
- `Dates`: `new Date("YYYY-MM-DD")` as a day number.

Every network or SDK call is an input to the model:

- The Amadeus SDK is a record of total functions (`Backend.Amadeus`).
- The auth service and the protected API are `Auth.Server`.
- The start-up verification is an ordinary request through `Auth.Fetch`, so it meets the same interceptors as every other call.

Endpoints and session transitions return the calls they made, in order, alongside their result. That is how "no request is sent", "exactly one replay" and "the server is told only when a refresh token is stored" are stated.

Two behaviours of the code worth knowing:

- Concurrent 401s do not share one in-flight refresh: the interceptor has no such guard, and every failing request runs its own refresh. The model has no guard either, and it proves the single-retry rule per request (`Auth.Fetch`).
- The stops label depends only on per-segment stop counts. As a result, a two-segment connection whose segments report no stops is labelled `Direct` (`FlightSearch.ConnectionLabelledDirect`). This is modelled as written.

## Model

| member | source | states |
|---|---|---|
| Text.NatToString | frontend/src/components/FlightSearch.js:322 | `String(n)` of a count is a non-empty digit string with no leading zero except for 0 itself |
| Text.NatToStringRoundTrip | frontend/src/components/FlightSearch.js:322 | the decimal text of a count reads back as that count |
| Text.ParseInt | backend/backendserver.js:103 | `parseInt` yields NaN exactly when no digit follows the leading whitespace and optional sign |
| Text.ParseIntRoundTrip | backend/backendserver.js:208 | `parseInt(String(n))` is `n` for every integer, so adults sent as text come back unchanged |
| Text.ParseIntPrefix | backend/backendserver.js:103 | for any text made of white space, an optional sign, a run of digits and anything not starting with a digit, `parseInt` is the digits' value, negated exactly for `-` |
| Text.ReplaceFirst | frontend/src/components/FlightSearch.js:122 | a string-pattern `replace` rewrites only the first occurrence, and leaves text without the pattern unchanged |
| Seqs.Filter | backend/backendserver.js:226 | `filter` keeps exactly the elements passing the test and never lengthens the list |
| Seqs.FilterConcat | frontend/src/components/HotelSearch.js:47-50 | filtering commutes with concatenation, so the kept elements stay in order |
| LocationText.DisplayText | frontend/src/components/FlightSearch.js:53 | the text starts with the city (or the name when the city is empty), then a space and the code in parentheses closes it |
| LocationText.MatchCode | frontend/src/components/FlightSearch.js:65 | the match is null exactly when no `(XXX)` occurs; otherwise it is the three upper-case letters of the leftmost one |
| LocationText.MatchDisplayText | frontend/src/components/FlightSearch.js:53-66 | the code of `label (CODE)` is read back when CODE is three upper-case letters and the label holds no `(XXX)` |
| LocationText.MatchDisplayTextNone | frontend/src/components/FlightSearch.js:59-66 | when the label holds no `(XXX)` and the code contains no parenthesis, a code that is not three upper-case letters gives no match |
| Dates.DayNumberOrder | frontend/src/components/HotelSearch.js:88 | comparing the dates' time values is calendar order, and equal time values mean equal dates |
| Dates.ParseDate | frontend/src/components/HotelSearch.js:88 | a date is read only from `YYYY-MM-DD` text (dashes at positions 4 and 7) and only when it names a real calendar day; anything else is an invalid date |
| Dates.NightsBetween | frontend/src/components/HotelSearch.js:139-142 | the whole-day distance is 0 exactly for equal dates and is the forward difference for ordered dates |
| Dates.NightsSymmetric | frontend/src/components/HotelSearch.js:141 | the day distance does not depend on argument order |
| Dates.ParseDateText | frontend/src/components/HotelSearch.js:139-140 | a date picked in a date input (`YYYY-MM-DD`) is read back by `new Date` as that same date |
| Dates.DateTextUnique | frontend/src/components/HotelSearch.js:139-140 | two date texts that parse to the same date are the same text |
| Backend.ServerError | backend/backendserver.js:74-79 | a 500 reply with the endpoint's message, whose details are the error's description when present, else its message |
| Backend.SearchLocations | backend/backendserver.js:47-81 | 400 exactly when the keyword is missing or shorter than 2, with no SDK call; otherwise one SDK call with the keyword; an answer gives 200 with exactly the reshaped locations, one per upstream entry with its code, in order; a thrown call gives the 500 `Failed to search locations` reply with the description or message as details |
| Backend.ReshapeLocation | backend/backendserver.js:62-70 | code, name and type are copied; city and country come from the address, both missing without one; latitude and longitude are the geoCode's, both missing without one |
| Backend.CoordsAgreeWithReshape | backend/backendserver.js:135-152 | the coordinates a flight search looks up for a code are exactly those the location search shows for the same first match, and the names and places agree |
| Backend.FlightQueryFor | backend/backendserver.js:99-105 | the offer query carries the three fields, `adults` defaulting to 1 through `parseInt`, and `max` 10 |
| Backend.ReshapeSegment | backend/backendserver.js:117-128 | departure and arrival codes and times, carrier code and flight number are copied, and a missing `numberOfStops` becomes 0 |
| Backend.ReshapeItinerary | backend/backendserver.js:115-129 | the duration is kept and each segment, in order, is the reshaped upstream segment |
| Backend.ReshapeOffer | backend/backendserver.js:111-131 | id, price total and currency, and the validating airlines are kept; each itinerary, in order, is the reshaped upstream itinerary |
| Backend.ReshapeOffersShape | backend/backendserver.js:109-132 | offers, itineraries and segments keep their number and order; ids are kept; missing stop counts become 0 |
| Backend.FindByCode | backend/backendserver.js:141 | `find` returns the first location whose code is equal, or none when no code is equal |
| Backend.CoordsFor | backend/backendserver.js:135-152 | coordinates exist exactly when the first exact-code match has a geoCode; a thrown lookup reads as null |
| Backend.MapPointFor | backend/backendserver.js:162-163 | a map point is null exactly when its coordinates are, and otherwise carries the requested code and exactly those coordinates |
| Backend.SearchFlights | backend/backendserver.js:84-174 | 400 with no SDK call exactly when origin, destination or date is missing; on success the offer call then two coordinate lookups, reshaped offers with status 200, and each map point null exactly when its lookup was and otherwise the requested code with the looked-up coordinates; a thrown offer call gives the 500 `Failed to search flights` reply after that one call |
| Backend.FirstHotelIds | backend/backendserver.js:201 | the ids of the first `min(20, n)` hotels, in list order |
| Backend.HotelQueryFor | backend/backendserver.js:204-209 | the offer query uses the first 20 ids and both dates; `adults` is `parseInt` of the given text, and 1 when it is missing |
| Backend.ReshapeHotel | backend/backendserver.js:211-223 | id, name, rating, address and geoCode are copied; each offer keeps its id, price, room and board type, in order; a missing offer list becomes empty |
| Backend.HotelsAnswer | backend/backendserver.js:225-235 | `hotels` are exactly the reshaped hotels with an offer; map entries are exactly those of reshaped hotels with coordinates, each carrying the hotel's id, name, coordinates and rating; neither list is longer than the answer |
| Backend.ToMapHotel | backend/backendserver.js:228-233 | a map entry carries the hotel's id, name, rating, and its geoCode as coordinates |
| Backend.HotelsKeepOrder | backend/backendserver.js:225-234 | both lists keep the answer's order |
| Backend.SearchHotels | backend/backendserver.js:177-244 | 400 with no SDK call exactly when a field is missing; an empty or absent hotel list gives `{hotels: []}` after one call; a thrown list call gives the 500 `Failed to search hotels` reply after that call; otherwise the list call then one offer call with at most 20 ids, answered with 200 and exactly the filtered body, or the 500 reply when the offer call throws |
| FlightSearch.SearchLocations | frontend/src/components/FlightSearch.js:23-36 | a query shorter than 2 sends no request and clears the list; a failed request also clears it; otherwise the list is the backend's answer |
| FlightSearch.LookupMatchesBackend | frontend/src/components/FlightSearch.js:23-31 | the form requests exactly the keywords the backend accepts, and shows the backend's reshaped locations |
| FlightSearch.SelectOrigin | frontend/src/components/FlightSearch.js:52-56 | only the origin text changes, and it becomes the location's display text `label (CODE)` |
| FlightSearch.SelectDestination | frontend/src/components/FlightSearch.js:58-62 | only the destination text changes, and it becomes the location's display text `label (CODE)` |
| FlightSearch.ExtractIataCode | frontend/src/components/FlightSearch.js:64-67 | `''` exactly when there is no `(XXX)`; otherwise the letters of the first one |
| FlightSearch.SelectOriginRoundTrip | frontend/src/components/FlightSearch.js:52-67 | selecting a location and extracting gives back its code (origin and destination) |
| FlightSearch.SelectMalformedCode | frontend/src/components/FlightSearch.js:52-67 | when the label holds no `(XXX)` and the code contains no parenthesis, a location whose code is not three upper-case letters extracts to `''` |
| FlightSearch.HandleSearch | frontend/src/components/FlightSearch.js:69-104 | refused exactly when a code or the departure date is empty; the body carries codes, date and adults, and `returnDate` exactly for a round trip with a return date; the hand-off names the destination |
| FlightSearch.SentSearchIsAccepted | frontend/src/components/FlightSearch.js:81-92 | every body the form sends passes the backend's check and yields an offer query with the same codes, date and adults |
| FlightSearch.FormatDuration | frontend/src/components/FlightSearch.js:121-123 | text without `P`, `H` or `M` is shown unchanged; a leading `PT` with no `H` or `M` after it is simply dropped |
| FlightSearch.FormatDurationHoursMinutes | frontend/src/components/FlightSearch.js:121-123 | `PT<h>H<m>M` is shown as `<h>h <m>m` |
| FlightSearch.FormatDurationMinutes | frontend/src/components/FlightSearch.js:121-123 | `PT<m>M` is shown as `<m>m` |
| FlightSearch.FormatDurationHours | frontend/src/components/FlightSearch.js:121-123 | `PT<h>H` is shown as `<h>h `, keeping the trailing space |
| FlightSearch.FormatDurationExample | frontend/src/components/FlightSearch.js:121-123 | `PT2H30M` is shown as `2h 30m` |
| FlightSearch.TotalStops | frontend/src/components/FlightSearch.js:320 | with no negative counts, the total is non-negative and at least each segment's own count |
| FlightSearch.TotalStopsOne | frontend/src/components/FlightSearch.js:320 | a single segment totals its own stop count |
| FlightSearch.TotalStopsConcat | frontend/src/components/FlightSearch.js:320 | the total over consecutive runs of segments is the sum of their totals, so it is the sum of all counts |
| FlightSearch.TotalStopsZero | frontend/src/components/FlightSearch.js:320 | with no negative counts, the stop total is zero exactly when every segment is non-stop |
| FlightSearch.StopsLabel | frontend/src/components/FlightSearch.js:320-323 | `Direct` exactly when stops sum to 0; otherwise the decimal text of `segments.length - 1` followed by ` stop`, with `s` exactly when there are more than 2 segments |
| FlightSearch.DirectIffNoUpstreamStops | frontend/src/components/FlightSearch.js:320-322 | on reshaped results the label is `Direct` exactly when no upstream segment reports a stop |
| FlightSearch.ConnectionLabelledDirect | frontend/src/components/FlightSearch.js:320-322 | two non-stop segments are labelled `Direct` |
| HotelSearch.AutoPopulate | frontend/src/components/HotelSearch.js:27-37 | flight data sets code, name, check-in and check-out (`''` without a return) and keeps adults; no data changes nothing |
| HotelSearch.SearchCities | frontend/src/components/HotelSearch.js:39-56 | short queries and failures give `[]`; otherwise the suggestions are exactly the answer's cities and airports with a city, no more of them than the answer has |
| HotelSearch.CitySuggestionsKeepOrder | frontend/src/components/HotelSearch.js:47-50 | the city filter preserves the answer's order |
| HotelSearch.SelectCity | frontend/src/components/HotelSearch.js:65-73 | only the stored code and the city text change; the code is the location's and the text is its display text `label (CODE)` |
| HotelSearch.ExtractCityCode | frontend/src/components/HotelSearch.js:75-78 | the letters of the first `(XXX)`, or the whole text when there is none |
| HotelSearch.ExtractorsAgree | frontend/src/components/HotelSearch.js:75-78 | the two extractors agree when there is a code, and differ (`''` versus the input) when there is none |
| HotelSearch.EffectiveCityCode | frontend/src/components/HotelSearch.js:81 | the stored code is used only when the city text is empty; otherwise the extracted code, never empty |
| HotelSearch.SelectCityRoundTrip | frontend/src/components/HotelSearch.js:65-81 | after choosing a location the searched code is that location's code |
| HotelSearch.FlightDestinationBecomesCity | frontend/src/components/HotelSearch.js:27-37 | after a flight search the hotel form searches the flight's destination code |
| HotelSearch.CheckOutNotAfter | frontend/src/components/HotelSearch.js:88-91 | true exactly when both dates are valid and check-out is not a later calendar day than check-in; never true for an empty date; true for the same valid date twice |
| HotelSearch.HandleSearch | frontend/src/components/HotelSearch.js:80-103 | the missing-field refusal exactly when a field is empty; the date-order refusal exactly when fields are present and check-out is not after check-in; otherwise the query with the effective code |
| HotelSearch.DateOrderGuard | frontend/src/components/HotelSearch.js:88-91 | with a city entered and two picked dates, the search proceeds exactly when check-out is a later calendar day |
| HotelSearch.SentQueryIsAccepted | frontend/src/components/HotelSearch.js:96-101 | every query the form sends passes the backend's check, and the backend parses the same adults back |
| HotelSearch.CalculateNights | frontend/src/components/HotelSearch.js:137-143 | 0 when a date is missing; NaN exactly when a date is invalid; otherwise the absolute day difference, 0 only for the same date |
| HotelSearch.PickedDatesNights | frontend/src/components/HotelSearch.js:137-143 | for two picked dates in calendar order the night count is their forward day difference, at least one |
| HotelSearch.NightsSymmetric | frontend/src/components/HotelSearch.js:137-143 | swapping the dates keeps the night count |
| HotelSearch.AcceptedSearchHasNights | frontend/src/components/HotelSearch.js:88-143 | with a city and check-out after check-in, the search goes ahead and shows the forward day difference, at least one night |
| Auth.StoredValue | frontend/src/contexts/AuthContext.js:27-28 | a stored value counts only when present and non-empty |
| Auth.AttachAuth | frontend/src/contexts/AuthContext.js:25-32 | with a stored token the request gets `Authorization: Bearer <token>` and nothing else changes; without one it is returned as is |
| Auth.Fetch | frontend/src/contexts/AuthContext.js:25-69 | a request is sent at most twice and refreshes at most once; a retried request passes through untouched; keys outside the three slots and the loading flag never change, the user and error are at most cleared, and a successful outcome changes at most the token pair |
| Auth.OnResponse | frontend/src/contexts/AuthContext.js:37-69 | anything but a first 401 with a stored refresh token passes through with the session unchanged and no call |
| Auth.RefreshAndReplay | frontend/src/contexts/AuthContext.js:42-59 | refresh with the stored token, store both new tokens, resend exactly once the request as first sent, marked retried and with the new bearer, and return that answer; the user and the error are untouched |
| Auth.RefreshFailureLogsOut | frontend/src/contexts/AuthContext.js:61-64 | a failed refresh logs out (server told with the old token), clears the three slots, the user and the error, and surfaces the refresh error |
| Auth.NoRefreshOtherwise | frontend/src/contexts/AuthContext.js:42-68 | a retried request, a non-401 or a missing refresh token gives the original outcome, one send, and an unchanged session |
| Auth.Logout | frontend/src/contexts/AuthContext.js:160-176 | the three slots go and other keys stay, `user` and `error` are cleared, and the server is told only when a refresh token is stored |
| Auth.SignedIn | frontend/src/contexts/AuthContext.js:117-120 | sign-in writes the token pair and the profile together and keeps other keys |
| Auth.Authenticate | frontend/src/contexts/AuthContext.js:105-132 | success stores the session and sets the user with no error; failure leaves storage and user untouched and reports the server's message or the fallback; loading ends false |
| Auth.Login | frontend/src/contexts/AuthContext.js:105-132 | `success` exactly on a valid answer; the error defaults to `Login failed` |
| Auth.Register | frontend/src/contexts/AuthContext.js:134-158 | `success` exactly on a valid answer; the error defaults to `Registration failed` |
| Auth.LoginThenAttach | frontend/src/contexts/AuthContext.js:118 | after login every request carries the new access token |
| Auth.LoginRefreshScenario | frontend/src/contexts/AuthContext.js:42-59 | sign in with (T1, R1); a 401 refreshes R1 to (T2, R2); the first attempt carries T1, the replay T2, storage ends with T2, R2 and the profile |
| Auth.CheckAuthStatus | frontend/src/contexts/AuthContext.js:79-100 | verification runs only when token and profile are both stored, is sent first with that token through the interceptors and at most twice; a settled success restores the stored profile as the user and keeps everything but the token pair; a settled failure leaves storage minus the three slots; a first-time success changes nothing but the user and loading; loading ends false |
| Auth.Startup | frontend/src/contexts/AuthContext.js:79-103 | after start-up loading is false, no error is set, and a signed-in user is the stored profile |
| Auth.StartupRestoresUser | frontend/src/contexts/AuthContext.js:79-103 | after start-up the user is authenticated exactly when token and profile were stored and the verification request settled successfully; otherwise after a failed verification none of the three slots remain |
| Auth.StartupRefreshesStaleToken | frontend/src/contexts/AuthContext.js:37-59 | a verification answered 401 refreshes the stored pair, is replayed with the new token, and on success start-up keeps the new pair and restores the user |

## Left out

- JSX rendering, dropdown and tab state, `alert`s, the App shell, and the map components are not modelled. They are presentation only, and the maps use floating-point coordinates and third-party libraries.
- `backend/server.js` is not part of this model. It is server wiring, and it depends on auth routes that are not shown.
- `formatTime`, `formatDate` and the price total rely on locale formatting and floating point, so they are not modelled.
- Concurrency and timing are not modelled: React effects, `Promise.all`, and requests interleaving with a pending refresh. Each transition runs to completion. In particular, the logout started on a failed refresh is not awaited by the interceptor; the model treats it as complete when the refresh error is surfaced.
- The refresh request itself passes through the response interceptor, so a 401 on it could start a nested refresh. The model takes its settled outcome as an input (`Server.refresh`). The logout call's answer is never read, so the model keeps only the fact that the call was made. A 401 on that call could itself start a refresh; whatever the refresh writes is removed afterwards, because the three slots are cleared once the call settles. That intermediate refresh is not modelled. The start-up verification is modelled through the interceptors (`Auth.CheckAuthStatus`).
- Auth.Login: takes the settled answer of `/auth/login`. A 401 from it would go through the refresh-and-replay like any other request; that path is not modelled for login and register.
- A request is its URL, headers and retry flag. Its method and body are not modelled: the interceptors only read and rewrite the headers and the retry flag, and a replay resends the request with everything else as it was.
- When no refresh token is stored, the interceptor sets `_retry` on the failed request and then discards it; that mutation cannot be observed, so it is not modelled.
- Malformed success payloads are not modelled: a refresh answer without tokens, a login answer without a user, upstream answers without `data` on the offer calls.
- `JSON.stringify`/`JSON.parse` of the profile are taken as inverse; the profile is kept as its text.
- Text.ParseInt: hexadecimal (`0x`) prefixes and non-integer `adults` values are not modelled. Decimal digits only. Leading white space is the ASCII space, tab, line feed, carriage return, vertical tab and form feed; the other Unicode white-space characters that `parseInt` also skips are not.
- Strings are sequences of characters, while JavaScript lengths count UTF-16 units. The length checks (`keyword.length < 2`) count characters here.
- Dates.ParseDate: only the `YYYY-MM-DD` form that date inputs produce is read. Every other string is an invalid date, whereas `new Date` also accepts other formats.
- `encodeURIComponent`, `URLSearchParams` and `hotelIds.join(',')` are not modelled. Queries carry their fields as values.
- Hard-coded credentials and environment configuration are not modelled.

=== FILE: auth.dfy ===
/** The client session of the authentication context: three durable
    storage slots and the in-memory user, the request interceptor that
    attaches the access token, the response interceptor that refreshes once
    on a 401 and replays the request once, and login, register, logout and
    the start-up check. Network answers are inputs; every transition also
    returns the calls it made, in order. */
module Auth {
  import opened JsValues

  const ACCESS_TOKEN := "accessToken"
  const REFRESH_TOKEN := "refreshToken"
  const USER := "user"
  const SESSION_KEYS := {ACCESS_TOKEN, REFRESH_TOKEN, USER}
  const AUTHORIZATION := "Authorization"

  /** Durable client storage (`localStorage`): string keys to string values. */
  type Storage = map<string, string>

  /** `localStorage.getItem(key)` used as a condition: the value when it is
      stored and truthy (not empty). */
  function StoredValue(storage: Storage, key: string): (r: Option<string>)
    ensures r.Some? <==> key in storage && storage[key] != ""
    ensures r.Some? ==> r.value == storage[key]
  {
    if key in storage && storage[key] != "" then Some(storage[key]) else None
  }

  /** A user profile, kept as its JSON text (`JSON.stringify` and
      `JSON.parse` are taken as inverse). */
  datatype User = User(json: string)

  datatype Session = Session(storage: Storage, user: Option<User>, loading: bool, error: Option<string>)

  /** The context reports a signed-in user exactly when one is set. */
  predicate IsAuthenticated(s: Session) {
    s.user.Some?
  }

  /** A request configuration; `retried` is the `_retry` flag. */
  datatype Request = Request(url: string, headers: map<string, string>, retried: bool)

  /** An error as axios reports it: the response status and the server's
      `error` field, when there was a response. */
  datatype HttpError = HttpError(status: Option<int>, serverMessage: Option<string>)

  /** How a request settles after the transport: a response, or an error. */
  datatype Outcome = Resolved(status: int, data: string) | Rejected(error: HttpError)

  /** How the refresh call settles. */
  datatype Refresh = Refreshed(accessToken: string, refreshToken: string) | RefreshRejected(error: HttpError)

  /** The authentication service and the protected API, as inputs. */
  datatype Server = Server(
    answer: Request -> Outcome,
    refresh: string -> Refresh)

  datatype Effect =
    | Sent(request: Request)
    | RefreshCalled(refreshToken: string)
    | LogoutCalled(refreshToken: string)

  /** A transition: the session after it, what the caller receives, and the
      calls made on the way. */
  datatype Step = Step(session: Session, result: Outcome, effects: seq<Effect>)

  function SentCount(effects: seq<Effect>): nat {
    if effects == [] then 0 else (if effects[0].Sent? then 1 else 0) + SentCount(effects[1..])
  }

  function RefreshCount(effects: seq<Effect>): nat {
    if effects == [] then 0 else (if effects[0].RefreshCalled? then 1 else 0) + RefreshCount(effects[1..])
  }

  lemma {:induction false} CountsOfConcat(a: seq<Effect>, b: seq<Effect>)
    ensures SentCount(a + b) == SentCount(a) + SentCount(b)
    ensures RefreshCount(a + b) == RefreshCount(a) + RefreshCount(b)
  {
    if a == [] {
      assert a + b == b;
    } else {
      assert (a + b)[0] == a[0];
      assert (a + b)[1..] == a[1..] + b;
      CountsOfConcat(a[1..], b);
    }
  }

  function Bearer(token: string): string {
    "Bearer " + token
  }

  /** The request interceptor: with a stored access token the request
      carries `Authorization: Bearer <token>`; nothing else changes. */
  function AttachAuth(storage: Storage, req: Request): (r: Request)
    ensures r.url == req.url && r.retried == req.retried
    ensures StoredValue(storage, ACCESS_TOKEN).None? ==> r == req
    ensures StoredValue(storage, ACCESS_TOKEN).Some? ==>
      AUTHORIZATION in r.headers && r.headers[AUTHORIZATION] == Bearer(storage[ACCESS_TOKEN])
    ensures forall h :: h != AUTHORIZATION ==>
      (h in r.headers <==> h in req.headers) && (h in r.headers ==> r.headers[h] == req.headers[h])
  {
    match StoredValue(storage, ACCESS_TOKEN)
    case Some(token) => req.(headers := req.headers[AUTHORIZATION := Bearer(token)])
    case None => req
  }

  /** `logout`: the server is told only when a refresh token is stored, and
      whatever it answers, the three slots are removed and `user` and
      `error` cleared. The answer is never read, so only the call is kept. */
  function Logout(s: Session): (r: Step)
    ensures r.session.storage.Keys == s.storage.Keys - SESSION_KEYS
    ensures forall k :: k in r.session.storage ==> r.session.storage[k] == s.storage[k]
    ensures r.session.user.None? && r.session.error.None? && r.session.loading == s.loading
    ensures !IsAuthenticated(r.session)
    ensures forall k :: k in SESSION_KEYS ==> StoredValue(r.session.storage, k).None?
    ensures StoredValue(s.storage, REFRESH_TOKEN).Some? ==>
      r.effects == [LogoutCalled(s.storage[REFRESH_TOKEN])]
    ensures StoredValue(s.storage, REFRESH_TOKEN).None? ==> r.effects == []
  {
    var effects := match StoredValue(s.storage, REFRESH_TOKEN)
      case Some(token) => [LogoutCalled(token)]
      case None => [];
    Step(s.(storage := s.storage - SESSION_KEYS, user := None, error := None), Resolved(200, ""), effects)
  }

  /** Storage outside the three session slots and the loading flag are
      never changed by a request, and the user and the error are at most
      cleared. */
  predicate Untouched(before: Session, after: Session) {
    && after.storage - SESSION_KEYS == before.storage - SESSION_KEYS
    && after.loading == before.loading
    && (after.user == before.user || after.user.None?)
    && (after.error == before.error || after.error.None?)
  }

  /** At most the token pair was rewritten: the profile slot, the user and
      the error are as before. */
  predicate OnlyTokensChanged(before: Session, after: Session) {
    && after.storage - {ACCESS_TOKEN, REFRESH_TOKEN} == before.storage - {ACCESS_TOKEN, REFRESH_TOKEN}
    && after.user == before.user && after.error == before.error && after.loading == before.loading
  }

  /** One request from the caller's side: the request interceptor, the
      transport, then the response interceptor. */
  function Fetch(s: Session, req: Request, server: Server): (r: Step)
    ensures |r.effects| >= 1 && r.effects[0] == Sent(AttachAuth(s.storage, req))
    ensures SentCount(r.effects) <= if req.retried then 1 else 2
    ensures RefreshCount(r.effects) <= if req.retried then 0 else 1
    ensures req.retried ==>
      var sent := AttachAuth(s.storage, req);
      r == Step(s, server.answer(sent), [Sent(sent)])
    ensures Untouched(s, r.session)
    ensures r.result.Resolved? ==> OnlyTokensChanged(s, r.session)
    decreases if req.retried then 0 else 1, 1
  {
    var sent := AttachAuth(s.storage, req);
    var step := OnResponse(s, sent, server.answer(sent), server);
    CountsOfConcat([Sent(sent)], step.effects);
    Step(step.session, step.result, [Sent(sent)] + step.effects)
  }

  /** The response interceptor. Successes and errors other than a first 401
      pass through untouched; a first 401 with a stored refresh token
      refreshes, stores both new tokens and replays the request once, marked
      as retried and carrying the new token; a failed refresh logs out and
      surfaces the refresh error. */
  function OnResponse(s: Session, sent: Request, outcome: Outcome, server: Server): (r: Step)
    ensures SentCount(r.effects) <= if sent.retried then 0 else 1
    ensures RefreshCount(r.effects) <= if sent.retried then 0 else 1
    ensures !(outcome.Rejected? && outcome.error.status == Some(401) && !sent.retried
              && StoredValue(s.storage, REFRESH_TOKEN).Some?) ==>
      r == Step(s, outcome, [])
    ensures Untouched(s, r.session)
    ensures r.result.Resolved? ==> OnlyTokensChanged(s, r.session)
    decreases if sent.retried then 0 else 1, 0
  {
    match outcome
    case Resolved(_, _) => Step(s, outcome, [])
    case Rejected(error) =>
      if error.status == Some(401) && !sent.retried then
        var retrying := sent.(retried := true);
        match StoredValue(s.storage, REFRESH_TOKEN)
        case None => Step(s, outcome, [])
        case Some(token) =>
          match server.refresh(token)
          case Refreshed(access, refresh) =>
            var refreshed := s.(storage := s.storage[ACCESS_TOKEN := access][REFRESH_TOKEN := refresh]);
            var resend := retrying.(headers := retrying.headers[AUTHORIZATION := Bearer(access)]);
            var step := Fetch(refreshed, resend, server);
            CountsOfConcat([RefreshCalled(token)], step.effects);
            Step(step.session, step.result, [RefreshCalled(token)] + step.effects)
          case RefreshRejected(refreshError) =>
            var out := Logout(s);
            CountsOfConcat([RefreshCalled(token)], out.effects);
            Step(out.session, Rejected(refreshError), [RefreshCalled(token)] + out.effects)
      else Step(s, outcome, [])
  }

  predicate FirstAttemptUnauthorized(s: Session, req: Request, server: Server) {
    var answer := server.answer(AttachAuth(s.storage, req));
    answer.Rejected? && answer.error.status == Some(401)
  }

  /** A first 401 with a stored refresh token that refreshes successfully:
      the refresh uses the stored token, both new tokens are stored, the
      request is sent again exactly once, marked retried and carrying the
      new access token, and the caller gets that second answer. */
  lemma RefreshAndReplay(s: Session, req: Request, server: Server)
    requires !req.retried && FirstAttemptUnauthorized(s, req, server)
    requires StoredValue(s.storage, REFRESH_TOKEN).Some?
    requires server.refresh(s.storage[REFRESH_TOKEN]).Refreshed?
    ensures var r := Fetch(s, req, server);
      var tokens := server.refresh(s.storage[REFRESH_TOKEN]);
      && |r.effects| == 3
      && r.effects[0] == Sent(AttachAuth(s.storage, req))
      && r.effects[1] == RefreshCalled(s.storage[REFRESH_TOKEN])
      && r.effects[2].Sent?
      && SentCount(r.effects) == 2
      && r.effects[2].request.retried
      && r.effects[2].request.url == req.url
      && AUTHORIZATION in r.effects[2].request.headers
      && r.effects[2].request.headers[AUTHORIZATION] == Bearer(tokens.accessToken)
      && r.effects[2].request == AttachAuth(s.storage, req).(
           retried := true,
           headers := AttachAuth(s.storage, req).headers[AUTHORIZATION := Bearer(tokens.accessToken)])
      && r.result == server.answer(r.effects[2].request)
      && r.session.storage == s.storage[ACCESS_TOKEN := tokens.accessToken][REFRESH_TOKEN := tokens.refreshToken]
      && r.session.user == s.user
      && r.session.error == s.error
  {
    var r := Fetch(s, req, server);
    var sent := AttachAuth(s.storage, req);
    var token := s.storage[REFRESH_TOKEN];
    var tokens := server.refresh(token);
    var refreshed := s.(storage := s.storage[ACCESS_TOKEN := tokens.accessToken][REFRESH_TOKEN := tokens.refreshToken]);
    var resend := sent.(retried := true).(headers := sent.headers[AUTHORIZATION := Bearer(tokens.accessToken)]);
    var replay := Fetch(refreshed, resend, server);
    assert replay.effects == [Sent(AttachAuth(refreshed.storage, resend))];
    assert AttachAuth(refreshed.storage, resend) == resend by {
      if tokens.accessToken != "" {
        assert resend.headers[AUTHORIZATION := Bearer(tokens.accessToken)] == resend.headers;
      }
    }
    var step := OnResponse(s, sent, server.answer(sent), server);
    assert step.effects == [RefreshCalled(token)] + replay.effects;
    assert r.effects == [Sent(sent)] + ([RefreshCalled(token)] + replay.effects);
  }

  /** A first 401 whose refresh fails: the client logs out (the server is
      told with the old refresh token), no replay happens, and the caller
      gets the refresh error. */
  lemma RefreshFailureLogsOut(s: Session, req: Request, server: Server)
    requires !req.retried && FirstAttemptUnauthorized(s, req, server)
    requires StoredValue(s.storage, REFRESH_TOKEN).Some?
    requires server.refresh(s.storage[REFRESH_TOKEN]).RefreshRejected?
    ensures var r := Fetch(s, req, server);
      && r.result == Rejected(server.refresh(s.storage[REFRESH_TOKEN]).error)
      && r.effects == [Sent(AttachAuth(s.storage, req)), RefreshCalled(s.storage[REFRESH_TOKEN]),
                       LogoutCalled(s.storage[REFRESH_TOKEN])]
      && SentCount(r.effects) == 1
      && r.session.storage.Keys == s.storage.Keys - SESSION_KEYS
      && !IsAuthenticated(r.session)
      && r.session.error.None?
  {
    var r := Fetch(s, req, server);
    var out := Logout(s);
    var token := s.storage[REFRESH_TOKEN];
    var sent := AttachAuth(s.storage, req);
    var step := OnResponse(s, sent, server.answer(sent), server);
    assert step.effects == [RefreshCalled(token)] + out.effects;
    assert r.effects == [Sent(sent)] + step.effects;
    assert SentCount(out.effects) == 0;
  }

  /** Everything else, including a 401 with no refresh token stored, is
      handed to the caller as it came, with the session untouched and no
      call besides the request itself. */
  lemma NoRefreshOtherwise(s: Session, req: Request, server: Server)
    requires req.retried || !FirstAttemptUnauthorized(s, req, server)
             || StoredValue(s.storage, REFRESH_TOKEN).None?
    ensures Fetch(s, req, server) == Step(s, server.answer(AttachAuth(s.storage, req)), [Sent(AttachAuth(s.storage, req))])
  {
  }

  /** The answer to a login or registration attempt. */
  datatype Credentials = Authenticated(user: User, accessToken: string, refreshToken: string)
                       | AuthRejected(error: HttpError)

  datatype AuthResult = Success | Failure(error: string)

  datatype Attempt = Attempt(session: Session, result: AuthResult)

  const LOGIN_FAILED := "Login failed"
  const REGISTRATION_FAILED := "Registration failed"

  /** Storage after a successful sign-in: the token pair and the profile. */
  function SignedIn(storage: Storage, c: Credentials): (r: Storage)
    requires c.Authenticated?
    ensures r.Keys == storage.Keys + SESSION_KEYS
    ensures r[ACCESS_TOKEN] == c.accessToken && r[REFRESH_TOKEN] == c.refreshToken && r[USER] == c.user.json
    ensures forall k :: k in storage && k !in SESSION_KEYS ==> r[k] == storage[k]
  {
    storage[ACCESS_TOKEN := c.accessToken][REFRESH_TOKEN := c.refreshToken][USER := c.user.json]
  }

  /** The shared body of `login` and `register`. */
  function Authenticate(s: Session, answer: Credentials, fallback: string): (r: Attempt)
    ensures !r.session.loading
    ensures answer.Authenticated? ==>
      && r.result == Success
      && r.session.storage == SignedIn(s.storage, answer)
      && r.session.user == Some(answer.user)
      && r.session.error.None?
    ensures answer.AuthRejected? ==>
      && r.result == Failure(Or(answer.error.serverMessage, fallback))
      && r.session.storage == s.storage
      && r.session.user == s.user
      && r.session.error == Some(r.result.error)
  {
    match answer
    case Authenticated(user, _, _) =>
      Attempt(s.(storage := SignedIn(s.storage, answer), user := Some(user), error := None, loading := false), Success)
    case AuthRejected(error) =>
      var message := Or(error.serverMessage, fallback);
      Attempt(s.(error := Some(message), loading := false), Failure(message))
  }

  function Login(s: Session, answer: Credentials): (r: Attempt)
    ensures answer.AuthRejected? && !Present(answer.error.serverMessage) ==> r.result == Failure(LOGIN_FAILED)
    ensures answer.AuthRejected? && Present(answer.error.serverMessage) ==>
      r.result == Failure(answer.error.serverMessage.value)
    ensures r.result.Success? <==> answer.Authenticated?
    ensures IsAuthenticated(r.session) <==> answer.Authenticated? || IsAuthenticated(s)
  {
    Authenticate(s, answer, LOGIN_FAILED)
  }

  function Register(s: Session, answer: Credentials): (r: Attempt)
    ensures answer.AuthRejected? && !Present(answer.error.serverMessage) ==> r.result == Failure(REGISTRATION_FAILED)
    ensures answer.AuthRejected? && Present(answer.error.serverMessage) ==>
      r.result == Failure(answer.error.serverMessage.value)
    ensures r.result.Success? <==> answer.Authenticated?
    ensures IsAuthenticated(r.session) <==> answer.Authenticated? || IsAuthenticated(s)
  {
    Authenticate(s, answer, REGISTRATION_FAILED)
  }

  /** After a successful login every request carries the new access token. */
  lemma LoginThenAttach(s: Session, answer: Credentials, req: Request)
    requires answer.Authenticated? && answer.accessToken != ""
    ensures var after := Login(s, answer).session;
      AttachAuth(after.storage, req).headers[AUTHORIZATION] == Bearer(answer.accessToken)
  {
  }

  /** Sign in with the pair (t1, r1); a request the API turns away with 401
      is replayed once after the refresh exchanges r1 for (t2, r2): the first
      attempt carries t1, the replay carries t2, and storage ends with the
      new pair and the same profile. */
  lemma LoginRefreshScenario(s: Session, user: User, t1: string, r1: string, t2: string, r2: string,
                             req: Request, server: Server)
    requires t1 != "" && r1 != "" && t2 != ""
    requires !req.retried
    requires server.refresh(r1) == Refreshed(t2, r2)
    requires var signedIn := Login(s, Authenticated(user, t1, r1)).session;
      FirstAttemptUnauthorized(signedIn, req, server)
    ensures var signedIn := Login(s, Authenticated(user, t1, r1)).session;
      var r := Fetch(signedIn, req, server);
      && |r.effects| == 3
      && r.effects[0].request.headers[AUTHORIZATION] == Bearer(t1)
      && r.effects[1] == RefreshCalled(r1)
      && r.effects[2].Sent?
      && AUTHORIZATION in r.effects[2].request.headers
      && r.effects[2].request.headers[AUTHORIZATION] == Bearer(t2)
      && SESSION_KEYS <= r.session.storage.Keys
      && r.session.storage[ACCESS_TOKEN] == t2
      && r.session.storage[REFRESH_TOKEN] == r2
      && r.session.storage[USER] == user.json
      && IsAuthenticated(r.session)
  {
    var signedIn := Login(s, Authenticated(user, t1, r1)).session;
    RefreshAndReplay(signedIn, req, server);
  }

  const VERIFY_URL := "/auth/verify"

  /** The start-up verification request, carrying the stored token itself. */
  function VerifyRequest(token: string): Request {
    Request(VERIFY_URL, map[AUTHORIZATION := Bearer(token)], false)
  }

  /** The start-up check (`checkAuthStatus`). The verification request goes
      through both interceptors like any other, so a 401 on it may refresh
      the token pair and replay it; its settled outcome decides. */
  function CheckAuthStatus(s: Session, server: Server): (r: Step)
    ensures !r.session.loading
    ensures var token := StoredValue(s.storage, ACCESS_TOKEN);
      var profile := StoredValue(s.storage, USER);
      && (token.None? || profile.None? ==> r.effects == [] && r.session == s.(loading := false))
      && (token.Some? && profile.Some? ==>
            var verified := Fetch(s, VerifyRequest(token.value), server);
            && r.effects == verified.effects
            && r.effects[0] == Sent(VerifyRequest(token.value))
            && SentCount(r.effects) <= 2
            && (verified.result.Resolved? ==>
                  && r.session.user == Some(User(profile.value))
                  && USER in r.session.storage && r.session.storage[USER] == profile.value
                  && r.session.storage - {ACCESS_TOKEN, REFRESH_TOKEN}
                     == s.storage - {ACCESS_TOKEN, REFRESH_TOKEN})
            && (verified.result.Rejected? ==>
                  r.session.storage == s.storage - SESSION_KEYS
                  && (r.session.user == s.user || r.session.user.None?))
            && (server.answer(VerifyRequest(token.value)).Resolved? ==>
                  r.session == s.(user := Some(User(profile.value)), loading := false)
                  && r.effects == [Sent(VerifyRequest(token.value))]))
  {
    var token := StoredValue(s.storage, ACCESS_TOKEN);
    var profile := StoredValue(s.storage, USER);
    if token.Some? && profile.Some? then
      var req := VerifyRequest(token.value);
      assert AttachAuth(s.storage, req) == req;
      var verified := Fetch(s, req, server);
      var after := verified.session;
      if verified.result.Resolved? then
        assert USER in s.storage - {ACCESS_TOKEN, REFRESH_TOKEN};
        assert USER in after.storage - {ACCESS_TOKEN, REFRESH_TOKEN};
        assert after.storage[USER] == (after.storage - {ACCESS_TOKEN, REFRESH_TOKEN})[USER];
        Step(after.(user := Some(User(profile.value)), loading := false), verified.result, verified.effects)
      else
        Step(after.(storage := after.storage - SESSION_KEYS, loading := false), verified.result, verified.effects)
    else
      Step(s.(loading := false), Resolved(200, ""), [])
  }

  /** The session at application start: storage as left by the last run. */
  function Startup(storage: Storage, server: Server): (s: Session)
    ensures !s.loading && s.error.None?
    ensures IsAuthenticated(s) ==> USER in storage && s.user == Some(User(storage[USER]))
  {
    CheckAuthStatus(Session(storage, None, true, None), server).session
  }

  /** After start-up the user is signed in exactly when both the token and
      the profile were stored and the verification settled successfully; a
      rejected verification clears all three slots. */
  lemma StartupRestoresUser(storage: Storage, server: Server)
    ensures var s := Startup(storage, server);
      var token := StoredValue(storage, ACCESS_TOKEN);
      var stored := token.Some? && StoredValue(storage, USER).Some?;
      && (IsAuthenticated(s) <==>
            stored && Fetch(Session(storage, None, true, None), VerifyRequest(token.value), server).result.Resolved?)
      && (stored && Fetch(Session(storage, None, true, None), VerifyRequest(token.value), server).result.Rejected? ==>
            forall k :: k in SESSION_KEYS ==> k !in s.storage)
  {
  }

  /** A stale access token at start-up: verification gets a 401, the stored
      refresh token is exchanged for a new pair, the verification is sent
      again with the new token and succeeds. Storage ends with the new pair
      and the same profile, and the user is restored. */
  lemma StartupRefreshesStaleToken(storage: Storage, server: Server, t2: string, r2: string)
    requires StoredValue(storage, ACCESS_TOKEN).Some? && StoredValue(storage, USER).Some?
    requires StoredValue(storage, REFRESH_TOKEN).Some? && t2 != ""
    requires var first := server.answer(VerifyRequest(storage[ACCESS_TOKEN]));
      first.Rejected? && first.error.status == Some(401)
    requires server.refresh(storage[REFRESH_TOKEN]) == Refreshed(t2, r2)
    requires server.answer(Request(VERIFY_URL, map[AUTHORIZATION := Bearer(t2)], true)).Resolved?
    ensures var r := CheckAuthStatus(Session(storage, None, true, None), server);
      && r.effects == [Sent(VerifyRequest(storage[ACCESS_TOKEN])), RefreshCalled(storage[REFRESH_TOKEN]),
                       Sent(Request(VERIFY_URL, map[AUTHORIZATION := Bearer(t2)], true))]
      && r.session.storage == storage[ACCESS_TOKEN := t2][REFRESH_TOKEN := r2]
      && r.session.user == Some(User(storage[USER]))
  {
    var s := Session(storage, None, true, None);
    var req := VerifyRequest(storage[ACCESS_TOKEN]);
    assert AttachAuth(s.storage, req) == req;
    assert AttachAuth(s.storage, req) == req;
    RefreshAndReplay(s, req, server);
    var resent := Request(VERIFY_URL, map[AUTHORIZATION := Bearer(t2)], true);
    var verified := Fetch(s, req, server);
    assert verified.effects[2].request.headers == map[AUTHORIZATION := Bearer(t2)];
    assert verified.effects[2].request == resent;
  }
}

=== FILE: backend.dfy ===
/** The three search endpoints of the backend proxy: request validation,
    the queries sent to the travel-data API (Amadeus), and the reshaping of
    its answers. The API is an input: a record of total functions from the
    query sent to the answer received. Each endpoint returns its reply and
    the list of API calls it made, in order. */
module Backend {
  import opened JsValues
  import Text
  import Seqs

  // ---------------------------------------------------------------------
  // Records of the upstream API (only the fields the code reads, plus a
  // few it drops) and of the JSON the endpoints answer with.
  // ---------------------------------------------------------------------

  datatype GeoCode = GeoCode(latitude: real, longitude: real)
  datatype Address = Address(cityName: Option<string>, countryName: Option<string>)

  datatype AmadeusLocation = AmadeusLocation(
    iataCode: string, name: string, subType: string,
    address: Option<Address>, geoCode: Option<GeoCode>)

  /** A location as `/api/locations/search` returns it. */
  datatype Location = Location(
    code: string, name: string, city: Option<string>, country: Option<string>,
    kind: string, latitude: Option<real>, longitude: Option<real>)

  datatype AmadeusPoint = AmadeusPoint(iataCode: string, terminal: Option<string>, at: string)
  datatype AmadeusSegment = AmadeusSegment(
    departure: AmadeusPoint, arrival: AmadeusPoint, carrierCode: string,
    number: string, duration: string, numberOfStops: Option<int>)
  datatype AmadeusItinerary = AmadeusItinerary(duration: string, segments: seq<AmadeusSegment>)
  datatype AmadeusPrice = AmadeusPrice(currency: string, total: string, base: string, grandTotal: string)
  datatype AmadeusOffer = AmadeusOffer(
    id: string, source: string, itineraries: seq<AmadeusItinerary>,
    price: AmadeusPrice, validatingAirlineCodes: seq<string>)

  datatype Point = Point(iataCode: string, at: string)
  datatype Segment = Segment(
    departure: Point, arrival: Point, carrierCode: string, number: string, numberOfStops: int)
  datatype Itinerary = Itinerary(duration: string, segments: seq<Segment>)
  datatype Price = Price(total: string, currency: string)
  datatype FlightOffer = FlightOffer(
    id: string, price: Price, itineraries: seq<Itinerary>, validatingAirlineCodes: seq<string>)

  datatype Coords = Coords(
    latitude: real, longitude: real, name: string, city: Option<string>, country: Option<string>)
  datatype MapPoint = MapPoint(code: string, coords: Coords)
  datatype FlightMap = FlightMap(origin: Option<MapPoint>, destination: Option<MapPoint>)
  datatype FlightsBody = FlightsBody(flights: seq<FlightOffer>, mapData: FlightMap)

  datatype HotelRef = HotelRef(hotelId: string, name: string)
  datatype RoomPrice = RoomPrice(currency: string, total: string)
  datatype Room = Room(description: Option<string>)
  datatype AmadeusRoomOffer = AmadeusRoomOffer(
    id: string, checkInDate: string, price: RoomPrice, room: Room, boardType: Option<string>)
  datatype HotelInfo = HotelInfo(
    hotelId: string, name: string, rating: Option<string>,
    address: Option<Address>, geoCode: Option<GeoCode>)
  datatype AmadeusHotelOffers = AmadeusHotelOffers(hotel: HotelInfo, offers: Option<seq<AmadeusRoomOffer>>)

  datatype RoomOffer = RoomOffer(id: string, price: RoomPrice, room: Room, boardType: Option<string>)
  datatype Hotel = Hotel(
    hotelId: string, name: string, rating: Option<string>, address: Option<Address>,
    geoCode: Option<GeoCode>, offers: seq<RoomOffer>)
  datatype MapHotel = MapHotel(
    hotelId: string, name: string, coordinates: Option<GeoCode>, rating: Option<string>)
  /** `{hotels, mapData}`; `mapData` is absent on the early "no hotels" answer. */
  datatype HotelsBody = HotelsBody(hotels: seq<Hotel>, mapData: Option<seq<MapHotel>>)

  // ---------------------------------------------------------------------
  // The API as an input, the calls made, and the replies.
  // ---------------------------------------------------------------------

  datatype LocationQuery = LocationQuery(
    keyword: string, subType: string, sort: Option<string>, pageLimit: Option<int>)
  datatype FlightOffersQuery = FlightOffersQuery(
    originLocationCode: string, destinationLocationCode: string, departureDate: string,
    adults: Option<int>, max: int)
  datatype HotelOffersQuery = HotelOffersQuery(
    hotelIds: seq<string>, checkInDate: string, checkOutDate: string, adults: Option<int>)

  datatype Call =
    | LocationsCall(locationQuery: LocationQuery)
    | FlightOffersCall(flightQuery: FlightOffersQuery)
    | HotelsByCityCall(cityCode: string)
    | HotelOffersCall(hotelQuery: HotelOffersQuery)

  /** What an API call settles to: its `data`, or a thrown error. */
  datatype Upstream<T> = Answer(data: T) | Thrown(description: Option<string>, message: string)

  datatype Amadeus = Amadeus(
    locations: LocationQuery -> Upstream<seq<AmadeusLocation>>,
    flightOffers: FlightOffersQuery -> Upstream<seq<AmadeusOffer>>,
    hotelsByCity: string -> Upstream<Option<seq<HotelRef>>>,
    hotelOffers: HotelOffersQuery -> Upstream<seq<AmadeusHotelOffers>>)

  /** An HTTP reply: a JSON body with status 200, or an error status with
      `{error, details}` (`details` only on 500). */
  datatype Reply<T> = Ok(body: T) | Fail(status: int, error: string, details: Option<string>)

  datatype Handled<T> = Handled(reply: Reply<T>, calls: seq<Call>)

  /** The 500 reply of a failed API call: the endpoint's message, and as
      details the error's description when it has one, else its message. */
  function ServerError<T, U>(error: string, u: Upstream<U>): (r: Reply<T>)
    requires u.Thrown?
    ensures r.Fail? && r.status == 500 && r.error == error
    ensures Present(u.description) ==> r.details == u.description
    ensures !Present(u.description) ==> r.details == Some(u.message)
  {
    Fail(500, error, Some(Or(u.description, u.message)))
  }

  // ---------------------------------------------------------------------
  // GET /api/locations/search
  // ---------------------------------------------------------------------

  const KEYWORD_ERROR := "Keyword must be at least 2 characters"
  const LOCATIONS_FAILED := "Failed to search locations"

  predicate KeywordValid(keyword: Option<string>) {
    Present(keyword) && |keyword.value| >= 2
  }

  function LocationQueryFor(keyword: string): LocationQuery {
    LocationQuery(keyword, "AIRPORT,CITY", Some("analytics.travelers.score"), Some(10))
  }

  function CityName(a: Option<Address>): Option<string> {
    if a.Some? then a.value.cityName else None
  }

  function CountryName(a: Option<Address>): Option<string> {
    if a.Some? then a.value.countryName else None
  }

  /** One upstream location as the frontend receives it. */
  function ReshapeLocation(l: AmadeusLocation): (r: Location)
    ensures r.code == l.iataCode && r.name == l.name && r.kind == l.subType
    ensures l.address.Some? ==>
      r.city == l.address.value.cityName && r.country == l.address.value.countryName
    ensures l.address.None? ==> r.city.None? && r.country.None?
    ensures l.geoCode.Some? ==>
      r.latitude == Some(l.geoCode.value.latitude) && r.longitude == Some(l.geoCode.value.longitude)
    ensures l.geoCode.None? ==> r.latitude.None? && r.longitude.None?
  {
    Location(
      l.iataCode, l.name, CityName(l.address), CountryName(l.address), l.subType,
      if l.geoCode.Some? then Some(l.geoCode.value.latitude) else None,
      if l.geoCode.Some? then Some(l.geoCode.value.longitude) else None)
  }

  function ReshapeLocations(ls: seq<AmadeusLocation>): (r: seq<Location>)
    ensures |r| == |ls|
    ensures forall i :: 0 <= i < |ls| ==> r[i] == ReshapeLocation(ls[i])
  {
    seq(|ls|, i requires 0 <= i < |ls| => ReshapeLocation(ls[i]))
  }

  function SearchLocations(keyword: Option<string>, api: Amadeus): (r: Handled<seq<Location>>)
    ensures !KeywordValid(keyword) <==> r.reply.Fail? && r.reply.status == 400
    ensures !KeywordValid(keyword) ==> r == Handled(Fail(400, KEYWORD_ERROR, None), [])
    ensures KeywordValid(keyword) ==> r.calls == [LocationsCall(LocationQueryFor(keyword.value))]
    ensures r.reply.Ok? ==>
      var answer := api.locations(LocationQueryFor(keyword.value));
      answer.Answer? && |r.reply.body| == |answer.data|
      && forall i :: 0 <= i < |answer.data| ==> r.reply.body[i].code == answer.data[i].iataCode
    ensures KeywordValid(keyword) ==>
      var answer := api.locations(LocationQueryFor(keyword.value));
      && (answer.Answer? ==> r.reply.Ok? && r.reply.body == ReshapeLocations(answer.data))
      && (answer.Thrown? ==>
            r.reply.Fail? && r.reply.status == 500 && r.reply.error == LOCATIONS_FAILED
            && r.reply.details == Some(Or(answer.description, answer.message)))
  {
    if !KeywordValid(keyword) then
      Handled(Fail(400, KEYWORD_ERROR, None), [])
    else
      var q := LocationQueryFor(keyword.value);
      var answer := api.locations(q);
      match answer
      case Answer(data) => Handled(Ok(ReshapeLocations(data)), [LocationsCall(q)])
      case Thrown(_, _) => Handled(ServerError(LOCATIONS_FAILED, answer), [LocationsCall(q)])
  }

  // ---------------------------------------------------------------------
  // POST /api/flights/search
  // ---------------------------------------------------------------------

  datatype FlightSearchRequest = FlightSearchRequest(
    originLocationCode: Option<string>, destinationLocationCode: Option<string>,
    departureDate: Option<string>, adults: Option<int>, returnDate: Option<string>)

  const FLIGHT_FIELDS_ERROR := "Origin, destination, and departure date are required"
  const FLIGHTS_FAILED := "Failed to search flights"
  const MAX_FLIGHT_OFFERS := 10

  predicate FlightRequestComplete(req: FlightSearchRequest) {
    Present(req.originLocationCode) && Present(req.destinationLocationCode)
    && Present(req.departureDate)
  }

  /** The offer-search query: `adults` defaults to 1 and goes through
      `parseInt`; `max` is fixed; `returnDate` is not forwarded. */
  function FlightQueryFor(req: FlightSearchRequest): (q: FlightOffersQuery)
    requires FlightRequestComplete(req)
    ensures q.adults == Some(req.adults.GetOr(1))
    ensures q.max == MAX_FLIGHT_OFFERS
    ensures q.originLocationCode == req.originLocationCode.value
    ensures q.destinationLocationCode == req.destinationLocationCode.value
    ensures q.departureDate == req.departureDate.value
  {
    Text.ParseIntRoundTrip(req.adults.GetOr(1));
    FlightOffersQuery(
      req.originLocationCode.value, req.destinationLocationCode.value, req.departureDate.value,
      Text.ParseInt(Text.IntToString(req.adults.GetOr(1))), MAX_FLIGHT_OFFERS)
  }

  function ReshapeSegment(s: AmadeusSegment): (r: Segment)
    ensures r.numberOfStops == s.numberOfStops.GetOr(0)
    ensures r.departure.iataCode == s.departure.iataCode && r.arrival.iataCode == s.arrival.iataCode
    ensures r.departure.at == s.departure.at && r.arrival.at == s.arrival.at
    ensures r.carrierCode == s.carrierCode && r.number == s.number
  {
    Segment(
      Point(s.departure.iataCode, s.departure.at), Point(s.arrival.iataCode, s.arrival.at),
      s.carrierCode, s.number, s.numberOfStops.GetOr(0))
  }

  function ReshapeItinerary(it: AmadeusItinerary): (r: Itinerary)
    ensures r.duration == it.duration && |r.segments| == |it.segments|
    ensures forall k :: 0 <= k < |it.segments| ==> r.segments[k] == ReshapeSegment(it.segments[k])
  {
    Itinerary(it.duration, seq(|it.segments|, k requires 0 <= k < |it.segments| => ReshapeSegment(it.segments[k])))
  }

  function ReshapeOffer(o: AmadeusOffer): (r: FlightOffer)
    ensures r.id == o.id && r.price == Price(o.price.total, o.price.currency)
    ensures r.validatingAirlineCodes == o.validatingAirlineCodes
    ensures |r.itineraries| == |o.itineraries|
    ensures forall j :: 0 <= j < |o.itineraries| ==> r.itineraries[j] == ReshapeItinerary(o.itineraries[j])
  {
    FlightOffer(
      o.id, Price(o.price.total, o.price.currency),
      seq(|o.itineraries|, j requires 0 <= j < |o.itineraries| => ReshapeItinerary(o.itineraries[j])),
      o.validatingAirlineCodes)
  }

  function ReshapeOffers(os: seq<AmadeusOffer>): (r: seq<FlightOffer>)
    ensures |r| == |os|
    ensures forall i :: 0 <= i < |os| ==> r[i] == ReshapeOffer(os[i])
  {
    seq(|os|, i requires 0 <= i < |os| => ReshapeOffer(os[i]))
  }

  /** Offers, itineraries and segments keep their number and order, and a
      missing `numberOfStops` becomes 0. */
  lemma ReshapeOffersShape(os: seq<AmadeusOffer>, i: nat, j: nat, k: nat)
    requires i < |os| && j < |os[i].itineraries| && k < |os[i].itineraries[j].segments|
    ensures var r := ReshapeOffers(os);
      |r| == |os|
      && |r[i].itineraries| == |os[i].itineraries|
      && |r[i].itineraries[j].segments| == |os[i].itineraries[j].segments|
      && r[i].id == os[i].id
      && r[i].itineraries[j].segments[k].numberOfStops
         == os[i].itineraries[j].segments[k].numberOfStops.GetOr(0)
  {
  }

  /** The first index of a location with the given code (`Array.prototype.find`). */
  function FindByCode(ls: seq<AmadeusLocation>, code: string): (r: Option<nat>)
    ensures r.Some? ==> r.value < |ls| && ls[r.value].iataCode == code
    ensures r.Some? ==> forall j :: 0 <= j < r.value ==> ls[j].iataCode != code
    ensures r.None? ==> forall j :: 0 <= j < |ls| ==> ls[j].iataCode != code
  {
    if ls == [] then None
    else if ls[0].iataCode == code then Some(0)
    else match FindByCode(ls[1..], code)
      case Some(k) => Some(k + 1)
      case None => None
  }

  /** The map coordinates of a code agree with the location search's
      reshaping of the same upstream entry. */
  lemma CoordsAgreeWithReshape(code: string, ls: seq<AmadeusLocation>)
    requires FindByCode(ls, code).Some?
    ensures var loc := ReshapeLocation(ls[FindByCode(ls, code).value]);
      var c := CoordsFor(code, Answer(ls));
      && (c.Some? <==> loc.latitude.Some?)
      && (c.Some? ==>
            && loc.latitude == Some(c.value.latitude) && loc.longitude == Some(c.value.longitude)
            && loc.name == c.value.name && loc.city == c.value.city && loc.country == c.value.country)
  {
  }

  function CoordsQuery(code: string): LocationQuery {
    LocationQuery(code, "AIRPORT,CITY", None, None)
  }

  /** `getCoords`: the first location with exactly this code, when it has
      a `geoCode`; any thrown error reads as `null`. */
  function CoordsFor(code: string, answer: Upstream<seq<AmadeusLocation>>): (r: Option<Coords>)
    ensures answer.Thrown? ==> r.None?
    ensures answer.Answer? ==>
      (r.Some? <==> FindByCode(answer.data, code).Some?
                    && answer.data[FindByCode(answer.data, code).value].geoCode.Some?)
  {
    match answer
    case Thrown(_, _) => None
    case Answer(ls) =>
      match FindByCode(ls, code)
      case None => None
      case Some(i) =>
        var l := ls[i];
        if l.geoCode.None? then None
        else Some(Coords(l.geoCode.value.latitude, l.geoCode.value.longitude, l.name,
                         CityName(l.address), CountryName(l.address)))
  }

  function MapPointFor(code: string, c: Option<Coords>): (r: Option<MapPoint>)
    ensures r.None? <==> c.None?
    ensures r.Some? ==> r.value.code == code && r.value.coords == c.value
  {
    if c.Some? then Some(MapPoint(code, c.value)) else None
  }

  function SearchFlights(req: FlightSearchRequest, api: Amadeus): (r: Handled<FlightsBody>)
    ensures !FlightRequestComplete(req) <==> r.reply.Fail? && r.reply.status == 400
    ensures !FlightRequestComplete(req) ==> r == Handled(Fail(400, FLIGHT_FIELDS_ERROR, None), [])
    ensures FlightRequestComplete(req) ==>
      |r.calls| >= 1 && r.calls[0] == FlightOffersCall(FlightQueryFor(req))
    ensures r.reply.Ok? ==>
      var answer := api.flightOffers(FlightQueryFor(req));
      var origin := req.originLocationCode.value;
      var destination := req.destinationLocationCode.value;
      && answer.Answer?
      && r.reply.body.flights == ReshapeOffers(answer.data)
      && r.calls == [FlightOffersCall(FlightQueryFor(req)),
                     LocationsCall(CoordsQuery(origin)), LocationsCall(CoordsQuery(destination))]
      && (r.reply.body.mapData.origin.None?
          <==> CoordsFor(origin, api.locations(CoordsQuery(origin))).None?)
      && (r.reply.body.mapData.destination.None?
          <==> CoordsFor(destination, api.locations(CoordsQuery(destination))).None?)
      && (r.reply.body.mapData.origin.Some? ==>
            r.reply.body.mapData.origin.value
            == MapPoint(origin, CoordsFor(origin, api.locations(CoordsQuery(origin))).value))
      && (r.reply.body.mapData.destination.Some? ==>
            r.reply.body.mapData.destination.value
            == MapPoint(destination, CoordsFor(destination, api.locations(CoordsQuery(destination))).value))
    ensures FlightRequestComplete(req) && api.flightOffers(FlightQueryFor(req)).Answer? ==> r.reply.Ok?
    ensures FlightRequestComplete(req) ==>
      var answer := api.flightOffers(FlightQueryFor(req));
      answer.Thrown? ==>
        && r.calls == [FlightOffersCall(FlightQueryFor(req))]
        && r.reply.Fail? && r.reply.status == 500 && r.reply.error == FLIGHTS_FAILED
        && r.reply.details == Some(Or(answer.description, answer.message))
  {
    if !FlightRequestComplete(req) then
      Handled(Fail(400, FLIGHT_FIELDS_ERROR, None), [])
    else
      var q := FlightQueryFor(req);
      var answer := api.flightOffers(q);
      match answer
      case Thrown(_, _) => Handled(ServerError(FLIGHTS_FAILED, answer), [FlightOffersCall(q)])
      case Answer(offers) =>
        var origin := req.originLocationCode.value;
        var destination := req.destinationLocationCode.value;
        var originCoords := CoordsFor(origin, api.locations(CoordsQuery(origin)));
        var destinationCoords := CoordsFor(destination, api.locations(CoordsQuery(destination)));
        var mapData := FlightMap(MapPointFor(origin, originCoords), MapPointFor(destination, destinationCoords));
        Handled(Ok(FlightsBody(ReshapeOffers(offers), mapData)),
                [FlightOffersCall(q), LocationsCall(CoordsQuery(origin)), LocationsCall(CoordsQuery(destination))])
  }

  // ---------------------------------------------------------------------
  // GET /api/hotels/search
  // ---------------------------------------------------------------------

  datatype HotelSearchRequest = HotelSearchRequest(
    cityCode: Option<string>, checkInDate: Option<string>, checkOutDate: Option<string>,
    adults: Option<string>)

  const HOTEL_FIELDS_ERROR := "City code, check-in and check-out dates are required"
  const HOTELS_FAILED := "Failed to search hotels"
  const MAX_HOTEL_IDS := 20

  predicate HotelRequestComplete(req: HotelSearchRequest) {
    Present(req.cityCode) && Present(req.checkInDate) && Present(req.checkOutDate)
  }

  /** The ids of at most the first twenty hotels of the city list, in order. */
  function FirstHotelIds(hs: seq<HotelRef>): (ids: seq<string>)
    ensures |ids| == if |hs| < MAX_HOTEL_IDS then |hs| else MAX_HOTEL_IDS
    ensures forall i :: 0 <= i < |ids| ==> ids[i] == hs[i].hotelId
  {
    var n := if |hs| < MAX_HOTEL_IDS then |hs| else MAX_HOTEL_IDS;
    seq(n, i requires 0 <= i < n => hs[i].hotelId)
  }

  /** The offer query; a missing `adults` is the number 1, and either way it
      goes through `parseInt`. */
  function HotelQueryFor(req: HotelSearchRequest, hs: seq<HotelRef>): (q: HotelOffersQuery)
    requires HotelRequestComplete(req)
    ensures q.hotelIds == FirstHotelIds(hs)
    ensures q.checkInDate == req.checkInDate.value && q.checkOutDate == req.checkOutDate.value
    ensures req.adults.None? ==> q.adults == Some(1)
    ensures req.adults.Some? ==> q.adults == Text.ParseInt(req.adults.value)
  {
    Text.ParseIntRoundTrip(1);
    HotelOffersQuery(FirstHotelIds(hs), req.checkInDate.value, req.checkOutDate.value,
                     Text.ParseInt(req.adults.GetOr(Text.IntToString(1))))
  }

  function ReshapeRoomOffer(o: AmadeusRoomOffer): RoomOffer {
    RoomOffer(o.id, o.price, o.room, o.boardType)
  }

  /** One hotel of the offer answer; a missing offer list becomes `[]`. */
  function ReshapeHotel(h: AmadeusHotelOffers): (r: Hotel)
    ensures r.hotelId == h.hotel.hotelId && r.geoCode == h.hotel.geoCode
    ensures r.name == h.hotel.name && r.rating == h.hotel.rating && r.address == h.hotel.address
    ensures |r.offers| == if h.offers.Some? then |h.offers.value| else 0
    ensures forall i :: 0 <= i < |r.offers| ==>
      var o := h.offers.value[i];
      r.offers[i] == RoomOffer(o.id, o.price, o.room, o.boardType)
  {
    var offers := h.offers.GetOr([]);
    Hotel(h.hotel.hotelId, h.hotel.name, h.hotel.rating, h.hotel.address, h.hotel.geoCode,
          seq(|offers|, i requires 0 <= i < |offers| => ReshapeRoomOffer(offers[i])))
  }

  function ReshapeHotels(hs: seq<AmadeusHotelOffers>): (r: seq<Hotel>)
    ensures |r| == |hs|
    ensures forall i :: 0 <= i < |hs| ==> r[i] == ReshapeHotel(hs[i])
  {
    seq(|hs|, i requires 0 <= i < |hs| => ReshapeHotel(hs[i]))
  }

  predicate HasOffers(h: Hotel) {
    |h.offers| > 0
  }

  predicate HasCoordinates(m: MapHotel) {
    m.coordinates.Some?
  }

  function ToMapHotel(h: Hotel): (m: MapHotel)
    ensures m.hotelId == h.hotelId && m.coordinates == h.geoCode
    ensures m.name == h.name && m.rating == h.rating
  {
    MapHotel(h.hotelId, h.name, h.geoCode, h.rating)
  }

  /** The success body: hotels with at least one offer, and the map entries
      of the hotels that have coordinates, each list in answer order. */
  function HotelsAnswer(hs: seq<AmadeusHotelOffers>): (b: HotelsBody)
    ensures b.mapData.Some?
    ensures |b.hotels| <= |hs| && |b.mapData.value| <= |hs|
    ensures forall h :: h in b.hotels <==> h in ReshapeHotels(hs) && |h.offers| > 0
    ensures forall m :: m in b.mapData.value <==>
      m.coordinates.Some? && exists h :: h in ReshapeHotels(hs) && m == ToMapHotel(h)
  {
    var hotels := ReshapeHotels(hs);
    var all := seq(|hotels|, i requires 0 <= i < |hotels| => ToMapHotel(hotels[i]));
    assert forall m :: m in all <==> exists h :: h in hotels && m == ToMapHotel(h) by {
      forall m ensures m in all <==> exists h :: h in hotels && m == ToMapHotel(h) {
        if m in all {
          var i :| 0 <= i < |all| && all[i] == m;
          assert hotels[i] in hotels;
        }
        if exists h :: h in hotels && m == ToMapHotel(h) {
          var h :| h in hotels && m == ToMapHotel(h);
          var i :| 0 <= i < |hotels| && hotels[i] == h;
          assert all[i] == m;
        }
      }
    }
    HotelsBody(Seqs.Filter(HasOffers, hotels), Some(Seqs.Filter(HasCoordinates, all)))
  }

  /** Both lists of the success body keep the answer's order: the body of a
      concatenated answer is the concatenation of the bodies. */
  lemma HotelsKeepOrder(a: seq<AmadeusHotelOffers>, b: seq<AmadeusHotelOffers>)
    ensures HotelsAnswer(a + b).hotels == HotelsAnswer(a).hotels + HotelsAnswer(b).hotels
    ensures HotelsAnswer(a + b).mapData.value
         == HotelsAnswer(a).mapData.value + HotelsAnswer(b).mapData.value
  {
    var ra, rb := ReshapeHotels(a), ReshapeHotels(b);
    assert ReshapeHotels(a + b) == ra + rb;
    Seqs.FilterConcat(HasOffers, ra, rb);
    var ma := seq(|ra|, i requires 0 <= i < |ra| => ToMapHotel(ra[i]));
    var mb := seq(|rb|, i requires 0 <= i < |rb| => ToMapHotel(rb[i]));
    var rab := ra + rb;
    assert seq(|rab|, i requires 0 <= i < |rab| => ToMapHotel(rab[i])) == ma + mb;
    Seqs.FilterConcat(HasCoordinates, ma, mb);
  }

  function SearchHotels(req: HotelSearchRequest, api: Amadeus): (r: Handled<HotelsBody>)
    ensures !HotelRequestComplete(req) <==> r.reply.Fail? && r.reply.status == 400
    ensures !HotelRequestComplete(req) ==> r == Handled(Fail(400, HOTEL_FIELDS_ERROR, None), [])
    ensures HotelRequestComplete(req) ==>
      |r.calls| >= 1 && r.calls[0] == HotelsByCityCall(req.cityCode.value)
    ensures HotelRequestComplete(req) ==>
      var list := api.hotelsByCity(req.cityCode.value);
      (list.Answer? && (list.data.None? || list.data.value == []))
      ==> r == Handled(Ok(HotelsBody([], None)), [HotelsByCityCall(req.cityCode.value)])
    ensures r.reply.Ok? && r.reply.body.mapData.Some? ==>
      var list := api.hotelsByCity(req.cityCode.value);
      && list.Answer? && list.data.Some?
      && var q := HotelQueryFor(req, list.data.value);
      && |q.hotelIds| <= MAX_HOTEL_IDS
      && r.calls == [HotelsByCityCall(req.cityCode.value), HotelOffersCall(q)]
      && api.hotelOffers(q).Answer?
      && r.reply.body == HotelsAnswer(api.hotelOffers(q).data)
    ensures HotelRequestComplete(req) ==>
      var list := api.hotelsByCity(req.cityCode.value);
      list.Thrown? ==>
        && r.calls == [HotelsByCityCall(req.cityCode.value)]
        && r.reply.Fail? && r.reply.status == 500 && r.reply.error == HOTELS_FAILED
        && r.reply.details == Some(Or(list.description, list.message))
    ensures HotelRequestComplete(req) ==>
      var list := api.hotelsByCity(req.cityCode.value);
      (list.Answer? && list.data.Some? && list.data.value != []) ==>
        var q := HotelQueryFor(req, list.data.value);
        var answer := api.hotelOffers(q);
        && r.calls == [HotelsByCityCall(req.cityCode.value), HotelOffersCall(q)]
        && (answer.Answer? ==> r.reply == Ok(HotelsAnswer(answer.data)))
        && (answer.Thrown? ==>
              r.reply.Fail? && r.reply.status == 500 && r.reply.error == HOTELS_FAILED
              && r.reply.details == Some(Or(answer.description, answer.message)))
  {
    if !HotelRequestComplete(req) then
      Handled(Fail(400, HOTEL_FIELDS_ERROR, None), [])
    else
      var byCity := HotelsByCityCall(req.cityCode.value);
      var list := api.hotelsByCity(req.cityCode.value);
      match list
      case Thrown(_, _) => Handled(ServerError(HOTELS_FAILED, list), [byCity])
      case Answer(data) =>
        if data.None? || data.value == [] then
          Handled(Ok(HotelsBody([], None)), [byCity])
        else
          var q := HotelQueryFor(req, data.value);
          var answer := api.hotelOffers(q);
          match answer
          case Thrown(_, _) => Handled(ServerError(HOTELS_FAILED, answer), [byCity, HotelOffersCall(q)])
          case Answer(hs) => Handled(Ok(HotelsAnswer(hs)), [byCity, HotelOffersCall(q)])
  }
}

=== FILE: dates.dfy ===
/** Calendar dates as the hotel form handles them: `YYYY-MM-DD` strings
    (what a date input yields) read by `new Date(...)` as midnight UTC, so
    the difference of two of them is a whole number of days. */
module Dates {
  import opened JsValues
  import Text

  datatype Date = Date(year: nat, month: nat, day: nat)

  /** Proleptic Gregorian leap years. */
  predicate IsLeapYear(y: nat) {
    y % 4 == 0 && (y % 100 != 0 || y % 400 == 0)
  }

  function DaysInYear(y: nat): nat {
    if IsLeapYear(y) then 366 else 365
  }

  function DaysInMonth(y: nat, m: nat): nat
    requires 1 <= m <= 12
  {
    if m == 2 then (if IsLeapYear(y) then 29 else 28)
    else if m == 4 || m == 6 || m == 9 || m == 11 then 30
    else 31
  }

  predicate Valid(d: Date) {
    1 <= d.month <= 12 && 1 <= d.day <= DaysInMonth(d.year, d.month)
  }

  /** Days from 0000-01-01 to the first day of year `y`. */
  function DaysBeforeYear(y: nat): nat {
    if y == 0 then 0 else DaysBeforeYear(y - 1) + DaysInYear(y - 1)
  }

  /** Days from the first of January of `y` to the first day of month `m`
      (`m == 13` stands for the next first of January). */
  function DaysBeforeMonth(y: nat, m: nat): nat
    requires 1 <= m <= 13
  {
    if m == 1 then 0 else DaysBeforeMonth(y, m - 1) + DaysInMonth(y, m - 1)
  }

  /** The day count since 0000-01-01: a date's time value divided by a day. */
  function DayNumber(d: Date): nat
    requires Valid(d)
  {
    DaysBeforeYear(d.year) + DaysBeforeMonth(d.year, d.month) + d.day - 1
  }

  /** Calendar order: year, then month, then day. */
  predicate Before(a: Date, b: Date) {
    a.year < b.year
    || (a.year == b.year && a.month < b.month)
    || (a.year == b.year && a.month == b.month && a.day < b.day)
  }

  /** `new Date(s)` for the `YYYY-MM-DD` form; `None` stands for an invalid
      date (`NaN`), which is what any other string gives here. */
  function ParseDate(s: string): (r: Option<Date>)
    ensures r.Some? ==> Valid(r.value) && |s| == 10 && s[4] == '-' && s[7] == '-'
  {
    if |s| == 10 && s[4] == '-' && s[7] == '-'
       && Text.AllDigits(s[..4]) && Text.AllDigits(s[5..7]) && Text.AllDigits(s[8..])
    then
      var d := Date(Text.DigitsValue(s[..4]), Text.DigitsValue(s[5..7]), Text.DigitsValue(s[8..]));
      if Valid(d) then Some(d) else None
    else None
  }

  /** The value of a date input for `d`: `YYYY-MM-DD`, zero-padded. */
  function DateText(d: Date): (s: string)
    requires Valid(d) && d.year < 10000
    ensures |s| == 10 && s[4] == '-' && s[7] == '-'
  {
    assert Text.Pow10(4) == 10000 && Text.Pow10(2) == 100;
    Text.NatToStringLength(d.year, 4);
    Text.NatToStringLength(d.month, 2);
    Text.NatToStringLength(d.day, 2);
    Text.ZeroPadded(d.year, 4) + "-" + Text.ZeroPadded(d.month, 2) + "-" + Text.ZeroPadded(d.day, 2)
  }

  /** Round trip: every date a date input can hold is read back as itself. */
  lemma ParseDateText(d: Date)
    requires Valid(d) && d.year < 10000
    ensures ParseDate(DateText(d)) == Some(d)
  {
    var s := DateText(d);
    var y, m, n := Text.ZeroPadded(d.year, 4), Text.ZeroPadded(d.month, 2), Text.ZeroPadded(d.day, 2);
    assert s == y + "-" + m + "-" + n;
    assert s[..4] == y;
    assert s[5..7] == m;
    assert s[8..] == n;
  }

  lemma MonthsFillYear(y: nat)
    ensures DaysBeforeMonth(y, 13) == DaysInYear(y)
  {
    var feb := DaysInMonth(y, 2);
    assert DaysBeforeMonth(y, 1) == 0;
    assert DaysBeforeMonth(y, 2) == 31;
    assert DaysBeforeMonth(y, 3) == 31 + feb;
    assert DaysBeforeMonth(y, 4) == 62 + feb;
    assert DaysBeforeMonth(y, 5) == 92 + feb;
    assert DaysBeforeMonth(y, 6) == 123 + feb;
    assert DaysBeforeMonth(y, 7) == 153 + feb;
    assert DaysBeforeMonth(y, 8) == 184 + feb;
    assert DaysBeforeMonth(y, 9) == 215 + feb;
    assert DaysBeforeMonth(y, 10) == 245 + feb;
    assert DaysBeforeMonth(y, 11) == 276 + feb;
    assert DaysBeforeMonth(y, 12) == 306 + feb;
  }

  lemma {:induction false} DaysBeforeMonthGrows(y: nat, m: nat, n: nat)
    requires 1 <= m < n <= 13
    ensures DaysBeforeMonth(y, m) + DaysInMonth(y, m) <= DaysBeforeMonth(y, n)
    decreases n
  {
    if m + 1 < n {
      DaysBeforeMonthGrows(y, m, n - 1);
    }
  }

  lemma {:induction false} DaysBeforeYearGrows(y: nat, z: nat)
    requires y < z
    ensures DaysBeforeYear(y) + DaysInYear(y) <= DaysBeforeYear(z)
    decreases z
  {
    if y + 1 < z {
      DaysBeforeYearGrows(y, z - 1);
    }
  }

  /** A valid date's day number falls inside its year. */
  lemma DayNumberInYear(d: Date)
    requires Valid(d)
    ensures DaysBeforeYear(d.year) <= DayNumber(d) < DaysBeforeYear(d.year) + DaysInYear(d.year)
  {
    DaysBeforeMonthGrows(d.year, d.month, 13);
    MonthsFillYear(d.year);
  }

  /** Day numbers are strictly increasing in calendar order. */
  lemma DayNumberMonotone(a: Date, b: Date)
    requires Valid(a) && Valid(b) && Before(a, b)
    ensures DayNumber(a) < DayNumber(b)
  {
    if a.year < b.year {
      DayNumberInYear(a);
      DayNumberInYear(b);
      DaysBeforeYearGrows(a.year, b.year);
    } else if a.month < b.month {
      DaysBeforeMonthGrows(a.year, a.month, b.month);
    }
  }

  /** Comparing day numbers is comparing dates: the order is the same and
      equal day numbers mean the same date. */
  lemma DayNumberOrder(a: Date, b: Date)
    requires Valid(a) && Valid(b)
    ensures DayNumber(a) < DayNumber(b) <==> Before(a, b)
    ensures DayNumber(a) == DayNumber(b) <==> a == b
  {
    if Before(a, b) {
      DayNumberMonotone(a, b);
    } else if Before(b, a) {
      DayNumberMonotone(b, a);
    }
  }

  /** The whole number of days between two dates, in either order. */
  function NightsBetween(a: Date, b: Date): (n: nat)
    requires Valid(a) && Valid(b)
    ensures n == 0 <==> a == b
    ensures Before(a, b) ==> DayNumber(a) + n == DayNumber(b)
  {
    DayNumberOrder(a, b);
    if DayNumber(a) <= DayNumber(b) then DayNumber(b) - DayNumber(a) else DayNumber(a) - DayNumber(b)
  }

  lemma NightsSymmetric(a: Date, b: Date)
    requires Valid(a) && Valid(b)
    ensures NightsBetween(a, b) == NightsBetween(b, a)
  {
  }

  /** Two texts that read as the same date are the same text. */
  lemma DateTextUnique(s: string, t: string)
    ensures ParseDate(s).Some? && ParseDate(s) == ParseDate(t) ==> s == t
  {
    if ParseDate(s).Some? && ParseDate(s) == ParseDate(t) {
      Text.DigitsValueInjective(s[..4], t[..4]);
      Text.DigitsValueInjective(s[5..7], t[5..7]);
      Text.DigitsValueInjective(s[8..], t[8..]);
      assert s == s[..4] + "-" + s[5..7] + "-" + s[8..];
      assert t == t[..4] + "-" + t[5..7] + "-" + t[8..];
    }
  }
}

=== FILE: flight_search.dfy ===
/** The flight search form: location suggestions, the selected-location
    text, reading IATA codes back out of it, the search request it sends,
    and the duration and stops text of the results. */
module FlightSearch {
  import opened JsValues
  import Text
  import LocationText
  import Backend

  /** The form state (`searchParams`). */
  datatype SearchParams = SearchParams(
    origin: string, destination: string, departureDate: string, returnDate: string,
    tripType: string, adults: int)

  /** A suggestion lookup: the keyword requested from the backend, if any,
      and the suggestion list it leaves behind. */
  datatype Lookup = Lookup(request: Option<string>, suggestions: seq<Backend.Location>)

  /** `searchLocations`: short queries clear the list without a request;
      otherwise the backend's answer, or `[]` when the request fails. */
  function SearchLocations(query: string, reply: Backend.Reply<seq<Backend.Location>>): (r: Lookup)
    ensures r.request.None? <==> |query| < 2
    ensures r.request.Some? ==> r.request.value == query
    ensures r.request.None? || reply.Fail? ==> r.suggestions == []
    ensures r.request.Some? && reply.Ok? ==> r.suggestions == reply.body
  {
    if |query| < 2 then Lookup(None, [])
    else match reply
      case Ok(body) => Lookup(Some(query), body)
      case Fail(_, _, _) => Lookup(Some(query), [])
  }

  /** The form asks the backend exactly for the keywords the backend accepts,
      and the suggestions are the backend's reshaped locations. */
  lemma LookupMatchesBackend(query: string, api: Backend.Amadeus)
    ensures var handled := Backend.SearchLocations(Some(query), api);
      var lookup := SearchLocations(query, handled.reply);
      && (lookup.request.Some? <==> Backend.KeywordValid(Some(query)))
      && (lookup.request.Some? && api.locations(Backend.LocationQueryFor(query)).Answer? ==>
            lookup.suggestions
            == Backend.ReshapeLocations(api.locations(Backend.LocationQueryFor(query)).data))
  {
  }

  /** `selectOrigin`: only the origin text changes; it starts with the label. */
  function SelectOrigin(p: SearchParams, loc: Backend.Location): (r: SearchParams)
    ensures r.(origin := p.origin) == p
    ensures LocationText.LocationLabel(loc) <= r.origin
    ensures r.origin == LocationText.DisplayText(loc)
  {
    p.(origin := LocationText.DisplayText(loc))
  }

  function SelectDestination(p: SearchParams, loc: Backend.Location): (r: SearchParams)
    ensures r.(destination := p.destination) == p
    ensures LocationText.LocationLabel(loc) <= r.destination
    ensures r.destination == LocationText.DisplayText(loc)
  {
    p.(destination := LocationText.DisplayText(loc))
  }

  /** `extractIataCode`: the code of the first `(XXX)`, or `''` without one. */
  function ExtractIataCode(s: string): (r: string)
    ensures r == "" <==> !LocationText.HasCode(s)
    ensures r != "" ==> LocationText.IsIataCode(r)
    ensures forall i: nat :: LocationText.FirstCodeAt(s, i) ==> r == s[i + 1..i + 4]
  {
    match LocationText.MatchCode(s)
    case Some(code) => code
    case None => ""
  }

  /** Selecting a suggestion and searching reads back its code, provided the
      code is three upper-case letters and the label holds no `(XXX)`. */
  lemma SelectOriginRoundTrip(p: SearchParams, loc: Backend.Location)
    requires LocationText.IsIataCode(loc.code)
    requires !LocationText.HasCode(LocationText.LocationLabel(loc))
    ensures ExtractIataCode(SelectOrigin(p, loc).origin) == loc.code
    ensures ExtractIataCode(SelectDestination(p, loc).destination) == loc.code
  {
    LocationText.MatchDisplayText(LocationText.LocationLabel(loc), loc.code);
  }

  /** A suggestion without a well-formed code gives no code at all, so the
      search will be refused. */
  lemma SelectMalformedCode(p: SearchParams, loc: Backend.Location)
    requires !LocationText.IsIataCode(loc.code)
    requires '(' !in loc.code && ')' !in loc.code
    requires !LocationText.HasCode(LocationText.LocationLabel(loc))
    ensures ExtractIataCode(SelectOrigin(p, loc).origin) == ""
  {
    LocationText.MatchDisplayTextNone(LocationText.LocationLabel(loc), loc.code);
  }

  /** The payload handed to `onFlightSelect` after a successful search. */
  datatype FlightSelection = FlightSelection(
    destination: string, destinationName: string, departure: string, returnDate: string)

  /** `handleSearch`: refused without a request, or the request body to
      POST together with the selection reported once the search succeeds. */
  datatype SearchDecision =
    | Refused
    | Send(body: Backend.FlightSearchRequest, selection: FlightSelection)

  predicate IncludesReturn(p: SearchParams) {
    p.tripType == "roundtrip" && Truthy(p.returnDate)
  }

  function HandleSearch(p: SearchParams): (r: SearchDecision)
    ensures r.Refused? <==>
      ExtractIataCode(p.origin) == "" || ExtractIataCode(p.destination) == "" || p.departureDate == ""
    ensures r.Send? ==>
      && r.body.originLocationCode == Some(ExtractIataCode(p.origin))
      && r.body.destinationLocationCode == Some(ExtractIataCode(p.destination))
      && r.body.departureDate == Some(p.departureDate)
      && r.body.adults == Some(p.adults)
      && (r.body.returnDate.Some? <==> IncludesReturn(p))
      && (r.body.returnDate.Some? ==> r.body.returnDate.value == p.returnDate)
    ensures r.Send? ==>
      r.selection
      == FlightSelection(ExtractIataCode(p.destination), p.destination, p.departureDate, p.returnDate)
  {
    var originCode := ExtractIataCode(p.origin);
    var destinationCode := ExtractIataCode(p.destination);
    if !Truthy(originCode) || !Truthy(destinationCode) || !Truthy(p.departureDate) then
      Refused
    else
      var returnDate := if IncludesReturn(p) then Some(p.returnDate) else None;
      Send(
        Backend.FlightSearchRequest(
          Some(originCode), Some(destinationCode), Some(p.departureDate), Some(p.adults), returnDate),
        FlightSelection(destinationCode, p.destination, p.departureDate, p.returnDate))
  }

  /** Every request the form sends passes the backend's validation, and the
      offer query carries the extracted codes, the date and the adults. */
  lemma SentSearchIsAccepted(p: SearchParams)
    requires HandleSearch(p).Send?
    ensures Backend.FlightRequestComplete(HandleSearch(p).body)
    ensures var q := Backend.FlightQueryFor(HandleSearch(p).body);
      && q.originLocationCode == ExtractIataCode(p.origin)
      && q.destinationLocationCode == ExtractIataCode(p.destination)
      && q.departureDate == p.departureDate
      && q.adults == Some(p.adults)
      && q.max == Backend.MAX_FLIGHT_OFFERS
  {
  }

  /** `formatDuration`: `'PT'` dropped, then the first `'H'` and `'M'` spelt out. */
  function FormatDuration(duration: string): (r: string)
    ensures 'P' !in duration && 'H' !in duration && 'M' !in duration ==> r == duration
    ensures "PT" <= duration && 'H' !in duration && 'M' !in duration ==> r == duration[2..]
  {
    UnitlessDuration(duration);
    Text.ReplaceFirst(Text.ReplaceFirst(Text.ReplaceFirst(duration, "PT", ""), "H", "h "), "M", "m")
  }

  lemma UnitlessDuration(duration: string)
    ensures var shown := Text.ReplaceFirst(Text.ReplaceFirst(Text.ReplaceFirst(duration, "PT", ""), "H", "h "), "M", "m");
      && ('P' !in duration && 'H' !in duration && 'M' !in duration ==> shown == duration)
      && ("PT" <= duration && 'H' !in duration && 'M' !in duration ==> shown == duration[2..])
  {
    var noPrefix := Text.ReplaceFirst(duration, "PT", "");
    var hours := Text.ReplaceFirst(noPrefix, "H", "h ");
    if 'H' !in duration && 'M' !in duration {
      if 'P' !in duration {
        Text.ReplaceAbsentStart(duration, "PT", "");
        Text.ReplaceAbsentChar(noPrefix, 'H', "h ");
        Text.ReplaceAbsentChar(hours, 'M', "m");
      } else if "PT" <= duration {
        Text.ReplaceLeading(duration, "PT", "");
        assert noPrefix == duration[2..];
        Text.ReplaceAbsentChar(noPrefix, 'H', "h ");
        Text.ReplaceAbsentChar(hours, 'M', "m");
      }
    }
  }

  /** An ISO-8601 duration of hours and minutes reads as `"<h>h <m>m"`. */
  lemma FormatDurationHoursMinutes(h: string, m: string)
    requires Text.AllDigits(h) && Text.AllDigits(m)
    ensures FormatDuration("PT" + h + "H" + m + "M") == h + "h " + m + "m"
  {
    var s := "PT" + h + "H" + m + "M";
    var rest := h + ['H'] + (m + "M");
    assert s == "PT" + rest;
    Text.ReplaceLeading(s, "PT", "");
    assert Text.ReplaceFirst(s, "PT", "") == rest;
    NoLetterInDigits(h, 'H');
    Text.ReplaceCharAfter(h, 'H', m + "M", "h ");
    var t := h + "h " + m;
    NoLetterInDigits(h, 'M');
    NoLetterInDigits(m, 'M');
    assert 'M' !in t by {
      assert t == h + "h " + m;
    }
    assert h + "h " + (m + "M") == t + ['M'] + "";
    Text.ReplaceCharAfter(t, 'M', "", "m");
  }

  /** Without hours only the minutes remain. */
  lemma FormatDurationMinutes(m: string)
    requires Text.AllDigits(m)
    ensures FormatDuration("PT" + m + "M") == m + "m"
  {
    var s := "PT" + m + "M";
    var rest := m + ['M'] + "";
    assert s == "PT" + rest;
    Text.ReplaceLeading(s, "PT", "");
    NoLetterInDigits(m, 'M');
    NoLetterInDigits(m, 'H');
    assert 'H' !in rest;
    assert Text.ReplaceFirst(s, "PT", "") == rest;
    Text.ReplaceAbsentChar(rest, 'H', "h ");
    assert Text.ReplaceFirst(rest, "H", "h ") == rest;
    Text.ReplaceCharAfter(m, 'M', "", "m");
    assert m + "m" + "" == m + "m";
  }

  /** Without minutes the hours keep the trailing space of `"h "`. */
  lemma FormatDurationHours(h: string)
    requires Text.AllDigits(h)
    ensures FormatDuration("PT" + h + "H") == h + "h "
  {
    var s := "PT" + h + "H";
    var rest := h + ['H'] + "";
    assert s == "PT" + rest;
    Text.ReplaceLeading(s, "PT", "");
    assert Text.ReplaceFirst(s, "PT", "") == rest;
    NoLetterInDigits(h, 'H');
    Text.ReplaceCharAfter(h, 'H', "", "h ");
    assert Text.ReplaceFirst(rest, "H", "h ") == h + "h ";
    NoLetterInDigits(h, 'M');
    assert 'M' !in h + "h ";
    Text.ReplaceAbsentChar(h + "h ", 'M', "m");
  }

  lemma NoLetterInDigits(d: string, c: char)
    requires Text.AllDigits(d) && !Text.IsDigit(c)
    ensures c !in d
  {
  }

  /** The worked example: two and a half hours. */
  lemma FormatDurationExample(duration: string)
    requires duration == "PT2H30M"
    ensures FormatDuration(duration) == "2h 30m"
  {
    var h, m := "2", "30";
    assert h + "h " + m + "m" == "2h 30m";
    assert duration == "PT" + h + "H" + m + "M";
    assert FormatDuration(duration) == h + "h " + m + "m" by {
      assert Text.AllDigits(h) && Text.AllDigits(m);
      FormatDurationHoursMinutes(h, m);
    }
  }

  /** The stops of an itinerary: the sum of its segments' stop counts, a
      missing or zero count adding nothing. */
  function TotalStops(segments: seq<Backend.Segment>): (r: int)
    ensures (forall k :: 0 <= k < |segments| ==> segments[k].numberOfStops >= 0) ==>
      r >= 0 && forall k :: 0 <= k < |segments| ==> segments[k].numberOfStops <= r
  {
    if segments == [] then 0
    else
      assert forall k :: 1 <= k < |segments| ==> segments[k] == segments[1..][k - 1];
      segments[0].numberOfStops + TotalStops(segments[1..])
  }

  /** A single segment contributes exactly its own count. */
  lemma TotalStopsOne(x: Backend.Segment)
    ensures TotalStops([x]) == x.numberOfStops
  {
    assert [x][1..] == [];
  }

  /** The total is additive over consecutive runs of segments: it is the sum
      of the counts, whatever the grouping. */
  lemma {:induction false} TotalStopsConcat(a: seq<Backend.Segment>, b: seq<Backend.Segment>)
    ensures TotalStops(a + b) == TotalStops(a) + TotalStops(b)
  {
    if a == [] {
      assert a + b == b;
    } else {
      assert (a + b)[0] == a[0];
      assert (a + b)[1..] == a[1..] + b;
      TotalStopsConcat(a[1..], b);
    }
  }

  /** With no negative counts, the total is zero exactly when every segment
      is non-stop. */
  lemma {:induction false} TotalStopsZero(segments: seq<Backend.Segment>)
    requires forall k :: 0 <= k < |segments| ==> segments[k].numberOfStops >= 0
    ensures TotalStops(segments) >= 0
    ensures TotalStops(segments) == 0 <==> forall k :: 0 <= k < |segments| ==> segments[k].numberOfStops == 0
  {
    if segments != [] {
      TotalStopsZero(segments[1..]);
      assert forall k :: 1 <= k < |segments| ==> segments[k] == segments[1..][k - 1];
    }
  }

  /** The stops text of an itinerary: `'Direct'` when the stop counts sum to
      zero, otherwise the number of connections, `segments.length - 1`. */
  function StopsLabel(segments: seq<Backend.Segment>): (r: string)
    ensures r == "Direct" <==> TotalStops(segments) == 0
    ensures |r| > 0
    ensures r != "Direct" ==>
      |segments| >= 1 && Text.DigitsValue(Text.LeadingDigits(r)) == |segments| - 1
    ensures r != "Direct" ==> (r[|r| - 1] == 's' <==> |segments| > 2)
    ensures r != "Direct" ==>
      var count := Text.LeadingDigits(r);
      && count == Text.NatToString(|segments| - 1)
      && r[|count|..] == (if |segments| > 2 then " stops" else " stop")
  {
    if TotalStops(segments) == 0 then "Direct"
    else
      var count := Text.NatToString(|segments| - 1);
      var r := count + " stop" + (if |segments| > 2 then "s" else "");
      assert r == count + (" stop" + (if |segments| > 2 then "s" else ""));
      Text.LeadingDigitsOfDigits(count, " stop" + (if |segments| > 2 then "s" else ""));
      Text.NatToStringRoundTrip(|segments| - 1);
      assert r[0] != 'D';
      r
  }

  /** On reshaped results, where a missing count became 0, the text is
      `'Direct'` exactly when no upstream segment reports a stop. */
  lemma DirectIffNoUpstreamStops(it: Backend.AmadeusItinerary)
    requires forall k :: 0 <= k < |it.segments| ==> it.segments[k].numberOfStops.GetOr(0) >= 0
    ensures StopsLabel(Backend.ReshapeItinerary(it).segments) == "Direct"
      <==> forall k :: 0 <= k < |it.segments| ==> it.segments[k].numberOfStops.GetOr(0) == 0
  {
    var segments := Backend.ReshapeItinerary(it).segments;
    TotalStopsZero(segments);
  }

  /** A connection of two segments that each report no stop is labelled
      `'Direct'`: the label looks at stop counts, not at the connection. */
  lemma ConnectionLabelledDirect(a: Backend.Segment, b: Backend.Segment)
    requires a.numberOfStops == 0 && b.numberOfStops == 0
    ensures StopsLabel([a, b]) == "Direct"
  {
    assert [a, b][1..] == [b];
    assert [b][1..] == [];
    assert TotalStops([b]) == 0;
    assert TotalStops([a, b]) == 0;
  }
}

=== FILE: hotel_search.dfy ===
/** The hotel search form: filling it from a flight search, city
    suggestions, the city code it searches for, the request it sends, and
    the number of nights it shows. */
module HotelSearch {
  import opened JsValues
  import Text
  import Seqs
  import LocationText
  import Dates
  import Backend
  import FlightSearch

  datatype HotelParams = HotelParams(
    cityCode: string, cityName: string, checkInDate: string, checkOutDate: string, adults: int)

  /** The effect run when `flightData` arrives: four fields are taken from
      the flight search, `adults` is kept. */
  function AutoPopulate(p: HotelParams, flightData: Option<FlightSearch.FlightSelection>): (r: HotelParams)
    ensures flightData.None? ==> r == p
    ensures flightData.Some? ==>
      var f := flightData.value;
      && r.cityCode == f.destination && r.cityName == f.destinationName
      && r.checkInDate == f.departure && r.checkOutDate == f.returnDate
      && r.adults == p.adults
  {
    match flightData
    case None => p
    case Some(f) =>
      p.(cityCode := f.destination, cityName := f.destinationName,
         checkInDate := f.departure, checkOutDate := Or(Some(f.returnDate), ""))
  }

  /** Suggestions worth showing: cities, and airports that name their city. */
  predicate IsCitySuggestion(l: Backend.Location) {
    l.kind == "CITY" || (l.kind == "AIRPORT" && Present(l.city))
  }

  /** `searchCities`: like the flight form's lookup, then filtered. */
  function SearchCities(query: string, reply: Backend.Reply<seq<Backend.Location>>): (r: FlightSearch.Lookup)
    ensures r.request.None? <==> |query| < 2
    ensures r.request.None? || reply.Fail? ==> r.suggestions == []
    ensures forall i :: 0 <= i < |r.suggestions| ==> IsCitySuggestion(r.suggestions[i])
    ensures r.request.Some? && reply.Ok? ==>
      forall l :: l in r.suggestions <==> l in reply.body && IsCitySuggestion(l)
    ensures r.request.Some? && reply.Ok? ==> |r.suggestions| <= |reply.body|
  {
    if |query| < 2 then FlightSearch.Lookup(None, [])
    else match reply
      case Ok(body) => FlightSearch.Lookup(Some(query), Seqs.Filter(IsCitySuggestion, body))
      case Fail(_, _, _) => FlightSearch.Lookup(Some(query), [])
  }

  /** The city filter keeps the answer's order: it commutes with splitting
      the answer anywhere. */
  lemma CitySuggestionsKeepOrder(query: string, a: seq<Backend.Location>, b: seq<Backend.Location>)
    requires |query| >= 2
    ensures SearchCities(query, Backend.Ok(a + b)).suggestions
         == SearchCities(query, Backend.Ok(a)).suggestions + SearchCities(query, Backend.Ok(b)).suggestions
  {
    Seqs.FilterConcat(IsCitySuggestion, a, b);
  }

  /** `selectCity`: the stored code and the shown text change, nothing else. */
  function SelectCity(p: HotelParams, loc: Backend.Location): (r: HotelParams)
    ensures r.(cityCode := p.cityCode, cityName := p.cityName) == p
    ensures r.cityCode == loc.code && LocationText.LocationLabel(loc) <= r.cityName
    ensures r.cityName == LocationText.DisplayText(loc)
  {
    p.(cityCode := loc.code, cityName := LocationText.DisplayText(loc))
  }

  /** `extractCityCode`: the code of the first `(XXX)`, or the whole text. */
  function ExtractCityCode(s: string): (r: string)
    ensures !LocationText.HasCode(s) ==> r == s
    ensures LocationText.HasCode(s) ==> LocationText.IsIataCode(r)
    ensures forall i: nat :: LocationText.FirstCodeAt(s, i) ==> r == s[i + 1..i + 4]
  {
    match LocationText.MatchCode(s)
    case Some(code) => code
    case None => s
  }

  /** The two extractors agree whenever there is a code to find. */
  lemma ExtractorsAgree(s: string)
    ensures LocationText.HasCode(s) ==> ExtractCityCode(s) == FlightSearch.ExtractIataCode(s)
    ensures !LocationText.HasCode(s) ==> ExtractCityCode(s) == s && FlightSearch.ExtractIataCode(s) == ""
  {
  }

  /** The code sent with a search: the one read from the city text, and the
      stored code only when the city text is empty. */
  function EffectiveCityCode(p: HotelParams): (r: string)
    ensures p.cityName == "" ==> r == p.cityCode
    ensures p.cityName != "" ==> r == ExtractCityCode(p.cityName) && r != ""
  {
    var extracted := ExtractCityCode(p.cityName);
    if Truthy(extracted) then extracted else p.cityCode
  }

  /** Choosing a suggestion sets the stored code, and the code read back
      from the shown text is that same code. */
  lemma SelectCityRoundTrip(p: HotelParams, loc: Backend.Location)
    requires LocationText.IsIataCode(loc.code)
    requires !LocationText.HasCode(LocationText.LocationLabel(loc))
    ensures SelectCity(p, loc).cityCode == loc.code
    ensures ExtractCityCode(SelectCity(p, loc).cityName) == loc.code
    ensures EffectiveCityCode(SelectCity(p, loc)) == loc.code
  {
    LocationText.MatchDisplayText(LocationText.LocationLabel(loc), loc.code);
  }

  /** Filled from a flight search, the hotel form searches the flight's
      destination airport. */
  lemma FlightDestinationBecomesCity(fp: FlightSearch.SearchParams, p: HotelParams)
    requires FlightSearch.HandleSearch(fp).Send?
    ensures var selection := FlightSearch.HandleSearch(fp).selection;
      EffectiveCityCode(AutoPopulate(p, Some(selection))) == FlightSearch.ExtractIataCode(fp.destination)
  {
  }

  const FIELDS_MESSAGE := "Please fill in all required fields"
  const ORDER_MESSAGE := "Check-out date must be after check-in date"

  datatype HotelDecision = Refused(message: string) | Query(request: Backend.HotelSearchRequest)

  /** Check-out falls on or before check-in; false when either date is
      invalid, since comparisons with an invalid date are false. */
  function CheckOutNotAfter(p: HotelParams): (r: bool)
    ensures var checkIn := Dates.ParseDate(p.checkInDate);
      var checkOut := Dates.ParseDate(p.checkOutDate);
      r <==> checkIn.Some? && checkOut.Some? && !Dates.Before(checkIn.value, checkOut.value)
    ensures r ==> p.checkInDate != "" && p.checkOutDate != ""
    ensures p.checkInDate == p.checkOutDate && Dates.ParseDate(p.checkInDate).Some? ==> r
  {
    var checkIn := Dates.ParseDate(p.checkInDate);
    var checkOut := Dates.ParseDate(p.checkOutDate);
    if checkIn.Some? && checkOut.Some? then
      Dates.DayNumberOrder(checkIn.value, checkOut.value);
      Dates.DayNumber(checkOut.value) <= Dates.DayNumber(checkIn.value)
    else false
  }

  predicate FieldsMissing(p: HotelParams) {
    EffectiveCityCode(p) == "" || p.checkInDate == "" || p.checkOutDate == ""
  }

  /** `handleSearch`: the missing-field check, then the date-order check,
      then the query string sent to the backend. */
  function HandleSearch(p: HotelParams): (r: HotelDecision)
    ensures FieldsMissing(p) <==> r == Refused(FIELDS_MESSAGE)
    ensures r == Refused(ORDER_MESSAGE) <==> !FieldsMissing(p) && CheckOutNotAfter(p)
    ensures r.Query? ==> r.request == Backend.HotelSearchRequest(
      Some(EffectiveCityCode(p)), Some(p.checkInDate), Some(p.checkOutDate),
      Some(Text.IntToString(p.adults)))
  {
    var cityCode := EffectiveCityCode(p);
    if !Truthy(cityCode) || !Truthy(p.checkInDate) || !Truthy(p.checkOutDate) then
      Refused(FIELDS_MESSAGE)
    else if CheckOutNotAfter(p) then
      Refused(ORDER_MESSAGE)
    else
      Query(Backend.HotelSearchRequest(
        Some(cityCode), Some(p.checkInDate), Some(p.checkOutDate), Some(Text.IntToString(p.adults))))
  }

  /** With a city entered and both dates picked, a search goes ahead exactly
      when check-out is a later calendar day than check-in. */
  lemma DateOrderGuard(p: HotelParams, checkIn: Dates.Date, checkOut: Dates.Date)
    requires p.cityName != ""
    requires Dates.Valid(checkIn) && checkIn.year < 10000 && p.checkInDate == Dates.DateText(checkIn)
    requires Dates.Valid(checkOut) && checkOut.year < 10000 && p.checkOutDate == Dates.DateText(checkOut)
    ensures HandleSearch(p).Query? <==> Dates.Before(checkIn, checkOut)
  {
    Dates.ParseDateText(checkIn);
    Dates.ParseDateText(checkOut);
    Dates.DayNumberOrder(checkIn, checkOut);
  }

  /** Every query the form sends passes the backend's validation, and the
      backend parses the same number of adults back. */
  lemma SentQueryIsAccepted(p: HotelParams, hotels: seq<Backend.HotelRef>)
    requires HandleSearch(p).Query?
    ensures Backend.HotelRequestComplete(HandleSearch(p).request)
    ensures Backend.HotelQueryFor(HandleSearch(p).request, hotels).adults == Some(p.adults)
  {
    Text.ParseIntRoundTrip(p.adults);
  }

  /** `calculateNights`: 0 when a date is missing, otherwise the whole days
      between the two dates in either order; `None` stands for `NaN`. */
  function CalculateNights(p: HotelParams): (r: Option<int>)
    ensures p.checkInDate == "" || p.checkOutDate == "" ==> r == Some(0)
    ensures r.Some? && r.value == 0 && p.checkInDate != "" && p.checkOutDate != "" ==>
      p.checkInDate == p.checkOutDate
    ensures r.Some? ==> r.value >= 0
    ensures p.checkInDate != "" && p.checkOutDate != "" ==>
      var checkIn := Dates.ParseDate(p.checkInDate);
      var checkOut := Dates.ParseDate(p.checkOutDate);
      && (r.None? <==> checkIn.None? || checkOut.None?)
      && (r.Some? ==>
            r.value == Dates.DayNumber(checkOut.value) - Dates.DayNumber(checkIn.value)
            || r.value == Dates.DayNumber(checkIn.value) - Dates.DayNumber(checkOut.value))
  {
    if !Truthy(p.checkInDate) || !Truthy(p.checkOutDate) then Some(0)
    else
      var checkIn := Dates.ParseDate(p.checkInDate);
      var checkOut := Dates.ParseDate(p.checkOutDate);
      if checkIn.Some? && checkOut.Some? then
        Dates.DateTextUnique(p.checkInDate, p.checkOutDate);
        Some(Dates.NightsBetween(checkIn.value, checkOut.value))
      else None
  }

  /** Swapping the two dates does not change the number of nights. */
  lemma NightsSymmetric(p: HotelParams)
    ensures CalculateNights(p.(checkInDate := p.checkOutDate, checkOutDate := p.checkInDate))
         == CalculateNights(p)
  {
    var checkIn := Dates.ParseDate(p.checkInDate);
    var checkOut := Dates.ParseDate(p.checkOutDate);
    if checkIn.Some? && checkOut.Some? {
      Dates.NightsSymmetric(checkIn.value, checkOut.value);
    }
  }

  /** A search that goes ahead shows at least one night: the nights are the
      forward day difference of the two picked dates. */
  lemma AcceptedSearchHasNights(p: HotelParams, checkIn: Dates.Date, checkOut: Dates.Date)
    requires Dates.Valid(checkIn) && checkIn.year < 10000 && p.checkInDate == Dates.DateText(checkIn)
    requires Dates.Valid(checkOut) && checkOut.year < 10000 && p.checkOutDate == Dates.DateText(checkOut)
    requires p.cityName != "" && Dates.Before(checkIn, checkOut)
    ensures HandleSearch(p).Query?
    ensures CalculateNights(p) == Some(Dates.DayNumber(checkOut) - Dates.DayNumber(checkIn))
    ensures Dates.DayNumber(checkOut) - Dates.DayNumber(checkIn) >= 1
  {
    DateOrderGuard(p, checkIn, checkOut);
    PickedDatesNights(p, checkIn, checkOut);
  }

  lemma PickedDatesNights(p: HotelParams, checkIn: Dates.Date, checkOut: Dates.Date)
    requires Dates.Valid(checkIn) && checkIn.year < 10000 && p.checkInDate == Dates.DateText(checkIn)
    requires Dates.Valid(checkOut) && checkOut.year < 10000 && p.checkOutDate == Dates.DateText(checkOut)
    requires Dates.Before(checkIn, checkOut)
    ensures CalculateNights(p) == Some(Dates.DayNumber(checkOut) - Dates.DayNumber(checkIn))
    ensures Dates.DayNumber(checkOut) - Dates.DayNumber(checkIn) >= 1
  {
    Dates.ParseDateText(checkIn);
    Dates.ParseDateText(checkOut);
    Dates.DayNumberOrder(checkIn, checkOut);
    assert p.checkInDate != "" && p.checkOutDate != "";
  }
}

=== FILE: js_values.dfy ===
/** JavaScript values the travel-search code relies on: values that may be
    missing (`undefined`/`null`) and the truthiness of strings. */
module JsValues {

  /** A value that may be missing. */
  datatype Option<+T> = None | Some(value: T) {

    /** `x ?? default`: the value when present, the default otherwise. */
    function GetOr(default: T): T {
      match this
      case Some(v) => v
      case None => default
    }
  }

  /** A string is truthy in JavaScript exactly when it is not empty. */
  predicate Truthy(s: string) {
    s != ""
  }

  /** A possibly missing string is truthy when it is present and not empty. */
  predicate Present(o: Option<string>) {
    o.Some? && Truthy(o.value)
  }

  /** `a || b` where `a` may be missing: `a` when truthy, `b` otherwise. */
  function Or(a: Option<string>, b: string): (r: string)
    ensures Present(a) ==> r == a.value
    ensures !Present(a) ==> r == b
  {
    if Present(a) then a.value else b
  }
}

=== FILE: location_text.dfy ===
/** The `"<city or name> (<code>)"` text the search forms show for a chosen
    location, and the `/\(([A-Z]{3})\)/` match that reads the code back. */
module LocationText {
  import opened JsValues
  import Backend

  predicate IsUpper(c: char) {
    'A' <= c <= 'Z'
  }

  /** Three upper-case ASCII letters, the shape of an IATA code. */
  predicate IsIataCode(s: string) {
    |s| == 3 && IsUpper(s[0]) && IsUpper(s[1]) && IsUpper(s[2])
  }

  /** The pattern `(XXX)` matches `s` at index `i`. */
  predicate CodeAt(s: string, i: nat) {
    i + 5 <= |s| && s[i] == '(' && IsIataCode(s[i + 1..i + 4]) && s[i + 4] == ')'
  }

  predicate HasCode(s: string) {
    exists i :: 0 <= i <= |s| && CodeAt(s, i)
  }

  /** `i` is the leftmost match, the one `String.prototype.match` reports. */
  predicate FirstCodeAt(s: string, i: nat) {
    CodeAt(s, i) && forall j :: 0 <= j < i ==> !CodeAt(s, j)
  }

  function FirstCodeFrom(s: string, from: nat): (r: Option<nat>)
    requires from <= |s|
    ensures r.Some? ==> from <= r.value && CodeAt(s, r.value)
    ensures r.Some? ==> forall j :: from <= j < r.value ==> !CodeAt(s, j)
    ensures r.None? ==> forall j :: from <= j <= |s| ==> !CodeAt(s, j)
    decreases |s| - from
  {
    if CodeAt(s, from) then Some(from)
    else if from == |s| then None
    else FirstCodeFrom(s, from + 1)
  }

  /** The captured code of the leftmost three-capital-letter code in
      parentheses, or `None` when the text holds none. */
  function MatchCode(s: string): (r: Option<string>)
    ensures r.None? <==> !HasCode(s)
    ensures r.Some? ==> IsIataCode(r.value)
    ensures forall i: nat :: FirstCodeAt(s, i) ==> r == Some(s[i + 1..i + 4])
  {
    match FirstCodeFrom(s, 0)
    case Some(i) =>
      assert forall k: nat :: FirstCodeAt(s, k) ==> k == i;
      Some(s[i + 1..i + 4])
    case None => None
  }

  /** The part before the parenthesis: the city when it is non-empty, else
      the name. */
  function LocationLabel(loc: Backend.Location): string {
    Or(loc.city, loc.name)
  }

  /** The label, a space, and the code in parentheses. */
  function DisplayText(loc: Backend.Location): (r: string)
    ensures LocationLabel(loc) <= r
    ensures |r| == |LocationLabel(loc)| + |loc.code| + 3
    ensures r[|LocationLabel(loc)|] == ' ' && r[|LocationLabel(loc)| + 1] == '('
    ensures r[|r| - |loc.code| - 1..|r| - 1] == loc.code && r[|r| - 1] == ')'
  {
    LocationLabel(loc) + " (" + loc.code + ")"
  }

  /** No match can start inside a code-free label when a space follows it. */
  lemma NoCodeUpToLabelEnd(lead: string, tail: string)
    requires !HasCode(lead)
    requires tail != [] && tail[0] == ' '
    ensures forall j :: 0 <= j <= |lead| ==> !CodeAt(lead + tail, j)
  {
    var s := lead + tail;
    forall j | 0 <= j <= |lead|
      ensures !CodeAt(s, j)
    {
      if j + 5 <= |lead| {
        if CodeAt(s, j) {
          assert s[j..j + 5] == lead[j..j + 5];
          assert s[j + 1..j + 4] == lead[j + 1..j + 4];
          assert CodeAt(lead, j);
          assert false;
        }
      }
    }
  }

  /** Round trip: the code of a selected location is read back from its
      display text, provided the label part contains no `(XXX)` of its own. */
  lemma MatchDisplayText(lead: string, code: string)
    requires !HasCode(lead)
    requires IsIataCode(code)
    ensures MatchCode(lead + " (" + code + ")") == Some(code)
  {
    var s := lead + " (" + code + ")";
    var k := |lead| + 1;
    assert s == lead + (" (" + code + ")");
    NoCodeUpToLabelEnd(lead, " (" + code + ")");
    assert s[k + 1..k + 4] == code;
    assert CodeAt(s, k);
    assert FirstCodeAt(s, k);
  }

  /** A code that is not three upper-case letters (and holds no parenthesis)
      yields no match at all. */
  lemma MatchDisplayTextNone(lead: string, code: string)
    requires !HasCode(lead)
    requires !IsIataCode(code)
    requires '(' !in code && ')' !in code
    ensures MatchCode(lead + " (" + code + ")") == None
  {
    var s := lead + " (" + code + ")";
    var k := |lead| + 1;
    assert s == lead + (" (" + code + ")");
    NoCodeUpToLabelEnd(lead, " (" + code + ")");
    forall j | 0 <= j <= |s|
      ensures !CodeAt(s, j)
    {
    }
  }
}

=== FILE: seqs.dfy ===
/** `Array.prototype.filter` on sequences, with the facts the reshaping code
    relies on: it keeps exactly the elements satisfying the test, in order. */
module Seqs {

  /** The elements of `s` that satisfy `p`, in their original order. */
  function Filter<T(!new)>(p: T -> bool, s: seq<T>): (r: seq<T>)
    ensures |r| <= |s|
    ensures forall i :: 0 <= i < |r| ==> p(r[i])
    ensures forall x :: x in r <==> x in s && p(x)
  {
    if s == [] then []
    else (if p(s[0]) then [s[0]] else []) + Filter(p, s[1..])
  }

  /** Filtering commutes with concatenation, so relative order is kept. */
  lemma {:induction false} FilterConcat<T(!new)>(p: T -> bool, a: seq<T>, b: seq<T>)
    ensures Filter(p, a + b) == Filter(p, a) + Filter(p, b)
  {
    if a == [] {
      assert a + b == b;
    } else {
      assert (a + b)[0] == a[0];
      assert (a + b)[1..] == a[1..] + b;
      FilterConcat(p, a[1..], b);
    }
  }
}

=== FILE: text.dfy ===
/** String operations the code takes from the JavaScript runtime:
    `String(n)` for integers, `parseInt`, and `String.prototype.replace`
    with a string pattern (first occurrence only). */
module Text {
  import opened JsValues

  predicate IsDigit(c: char) {
    '0' <= c <= '9'
  }

  predicate AllDigits(s: string) {
    forall i :: 0 <= i < |s| ==> IsDigit(s[i])
  }

  function DigitChar(d: nat): (c: char)
    requires d < 10
    ensures IsDigit(c)
  {
    ('0' as int + d) as char
  }

  function DigitValue(c: char): (d: nat)
    requires IsDigit(c)
    ensures d < 10
  {
    c as int - '0' as int
  }

  /** The number a string of decimal digits denotes. */
  function DigitsValue(s: string): nat
    requires AllDigits(s)
  {
    if s == [] then 0 else DigitsValue(s[..|s| - 1]) * 10 + DigitValue(s[|s| - 1])
  }

  /** `String(n)` for a non-negative integer: its shortest decimal rendering. */
  function NatToString(n: nat): (r: string)
    ensures |r| >= 1 && AllDigits(r)
    ensures r[0] == '0' <==> n == 0
  {
    if n < 10 then [DigitChar(n)] else NatToString(n / 10) + [DigitChar(n % 10)]
  }

  /** `String(n)` for any integer. */
  function IntToString(n: int): (r: string)
    ensures |r| >= 1
    ensures r[0] == '-' <==> n < 0
  {
    if n < 0 then "-" + NatToString(-n) else NatToString(n)
  }

  /** Reading the rendering back gives the number: `NatToString` is injective. */
  lemma {:induction false} NatToStringRoundTrip(n: nat)
    ensures DigitsValue(NatToString(n)) == n
  {
    if n >= 10 {
      NatToStringRoundTrip(n / 10);
      var s := NatToString(n);
      assert s[..|s| - 1] == NatToString(n / 10);
    }
  }

  function Pow10(w: nat): (r: nat)
    ensures r >= 1
  {
    if w == 0 then 1 else 10 * Pow10(w - 1)
  }

  /** A number below `10^w` renders in at most `w` digits. */
  lemma {:induction false} NatToStringLength(n: nat, w: nat)
    requires 1 <= w && n < Pow10(w)
    ensures |NatToString(n)| <= w
  {
    if n >= 10 {
      assert n / 10 < Pow10(w - 1);
      NatToStringLength(n / 10, w - 1);
    }
  }

  function Zeros(k: nat): (r: string)
    ensures |r| == k && AllDigits(r)
  {
    seq(k, _ => '0')
  }

  /** Leading zeros do not change the number a digit string denotes. */
  lemma {:induction false} LeadingZeros(k: nat, s: string)
    requires AllDigits(s)
    ensures DigitsValue(Zeros(k) + s) == DigitsValue(s)
    decreases |s| + k
  {
    var z := Zeros(k);
    if s == [] {
      assert z + s == z;
      if k > 0 {
        assert z[..k - 1] == Zeros(k - 1);
        assert Zeros(k - 1) + [] == Zeros(k - 1);
        LeadingZeros(k - 1, []);
      }
    } else {
      var n := |s| - 1;
      assert (z + s)[..|z + s| - 1] == z + s[..n];
      assert (z + s)[|z + s| - 1] == s[n];
      LeadingZeros(k, s[..n]);
    }
  }

  /** The decimal text of `n` left-padded with zeros to `width` characters,
      as a date input writes months and days. */
  function ZeroPadded(n: nat, width: nat): (r: string)
    ensures AllDigits(r) && DigitsValue(r) == n
    ensures |NatToString(n)| <= width ==> |r| == width
  {
    var digits := NatToString(n);
    NatToStringRoundTrip(n);
    if |digits| < width then
      LeadingZeros(width - |digits|, digits);
      Zeros(width - |digits|) + digits
    else digits
  }

  /** Digit strings of one length denote different numbers. */
  lemma {:induction false} DigitsValueInjective(a: string, b: string)
    requires AllDigits(a) && AllDigits(b) && |a| == |b|
    requires DigitsValue(a) == DigitsValue(b)
    ensures a == b
  {
    if a != [] {
      var n := |a| - 1;
      var x, y := DigitValue(a[n]), DigitValue(b[n]);
      var p, q := DigitsValue(a[..n]), DigitsValue(b[..n]);
      assert p * 10 + x == q * 10 + y;
      assert x == y && p == q by {
        assert (p * 10 + x) % 10 == x;
        assert (q * 10 + y) % 10 == y;
        assert (p * 10 + x) / 10 == p;
        assert (q * 10 + y) / 10 == q;
      }
      DigitsValueInjective(a[..n], b[..n]);
      assert a[n] == ('0' as int + x) as char;
      assert b[n] == ('0' as int + y) as char;
      assert a == a[..n] + [a[n]] && b == b[..n] + [b[n]];
    }
  }

  /** The longest prefix of `s` made of decimal digits. */
  function LeadingDigits(s: string): (r: string)
    ensures r <= s && AllDigits(r)
    ensures |r| < |s| ==> !IsDigit(s[|r|])
  {
    if s == [] || !IsDigit(s[0]) then [] else [s[0]] + LeadingDigits(s[1..])
  }

  lemma {:induction false} LeadingDigitsOfDigits(d: string, rest: string)
    requires AllDigits(d)
    requires rest == [] || !IsDigit(rest[0])
    ensures LeadingDigits(d + rest) == d
  {
    if d != [] {
      assert (d + rest)[1..] == d[1..] + rest;
      LeadingDigitsOfDigits(d[1..], rest);
    }
  }

  /** The white space `parseInt` skips before the number (ASCII part). */
  predicate IsSpace(c: char) {
    c == ' ' || c == '\t' || c == '\n' || c == '\r' || c == '\U{B}' || c == '\U{C}'
  }

  function TrimStart(s: string): (r: string)
    ensures r == [] || !IsSpace(r[0])
    ensures |r| <= |s| && r == s[|s| - |r|..]
  {
    if s != [] && IsSpace(s[0]) then TrimStart(s[1..]) else s
  }

  /** `parseInt(s)` with radix 10: skip leading white space, read an optional
      sign and the longest run of digits after it; `None` stands for `NaN`
      (no digit at all). */
  function ParseInt(s: string): (r: Option<int>)
    ensures r.None? <==> LeadingDigits(SignStripped(TrimStart(s))) == []
  {
    var t := TrimStart(s);
    var digits := LeadingDigits(SignStripped(t));
    var magnitude: int := if digits == [] then 0 else DigitsValue(digits);
    if digits == [] then None
    else if t[0] == '-' then Some(-magnitude)
    else Some(magnitude)
  }

  function SignStripped(t: string): string {
    if t != [] && (t[0] == '-' || t[0] == '+') then t[1..] else t
  }

  /** Leading white space is skipped up to the first other character. */
  lemma {:induction false} TrimSpaces(ws: string, t: string)
    requires forall i :: 0 <= i < |ws| ==> IsSpace(ws[i])
    requires t == [] || !IsSpace(t[0])
    ensures TrimStart(ws + t) == t
  {
    if ws != [] {
      assert (ws + t)[0] == ws[0];
      assert (ws + t)[1..] == ws[1..] + t;
      TrimSpaces(ws[1..], t);
    } else {
      assert ws + t == t;
    }
  }

  /** The value `parseInt` reads from any text: white space, an optional
      sign, a run of digits, and whatever follows the digits. */
  lemma ParseIntPrefix(ws: string, sign: string, d: string, rest: string)
    requires forall i :: 0 <= i < |ws| ==> IsSpace(ws[i])
    requires sign == "" || sign == "+" || sign == "-"
    requires d != [] && AllDigits(d)
    requires rest == [] || !IsDigit(rest[0])
    ensures ParseInt(ws + (sign + d + rest))
         == Some(if sign == "-" then -(DigitsValue(d) as int) else DigitsValue(d) as int)
  {
    var t := sign + d + rest;
    SignedDigits(sign, d, rest);
    TrimSpaces(ws, t);
    ParseIntOfTrimmed(ws + t, t, d, sign == "-");
  }

  lemma ParseIntOfTrimmed(s: string, t: string, d: string, negative: bool)
    requires t != [] && TrimStart(s) == t && (t[0] == '-' <==> negative)
    requires d != [] && AllDigits(d) && LeadingDigits(SignStripped(t)) == d
    ensures ParseInt(s) == Some(if negative then -(DigitsValue(d) as int) else DigitsValue(d) as int)
  {
  }

  /** The text after the white space: it starts with the sign or the first
      digit, and the digits read after the sign are exactly `d`. */
  lemma SignedDigits(sign: string, d: string, rest: string)
    requires sign == "" || sign == "+" || sign == "-"
    requires d != [] && AllDigits(d)
    requires rest == [] || !IsDigit(rest[0])
    ensures var t := sign + d + rest;
      && t != [] && !IsSpace(t[0])
      && (t[0] == '-' <==> sign == "-")
      && LeadingDigits(SignStripped(t)) == d
  {
    var body := d + rest;
    var t := sign + d + rest;
    assert t == sign + body;
    assert body[0] == d[0] && IsDigit(d[0]);
    if sign == "" {
      assert t == body;
    } else {
      assert t[0] == sign[0] && t[1..] == body;
    }
    LeadingDigitsOfDigits(d, rest);
  }

  /** `parseInt(String(n)) == n`: the integer survives being rendered and parsed. */
  lemma ParseIntRoundTrip(n: int)
    ensures ParseInt(IntToString(n)) == Some(n)
  {
    var s := IntToString(n);
    var m: nat := if n < 0 then -n else n;
    var digits := NatToString(m);
    assert !IsSpace(s[0]);
    assert TrimStart(s) == s;
    if n < 0 {
      assert s == "-" + digits;
      assert SignStripped(s) == digits;
    } else {
      assert s == digits;
      assert SignStripped(s) == digits;
    }
    LeadingDigitsOfDigits(digits, []);
    assert digits + [] == digits;
    NatToStringRoundTrip(m);
  }

  /** `pat` occurs in `s` starting at index `i`. */
  predicate OccursAt(s: string, pat: string, i: nat) {
    i + |pat| <= |s| && s[i..i + |pat|] == pat
  }

  /** `i` is where the first occurrence of `pat` in `s` starts. */
  predicate FirstOccurrence(s: string, pat: string, i: nat) {
    OccursAt(s, pat, i) && forall j :: 0 <= j < i ==> !OccursAt(s, pat, j)
  }

  /** The first index at or after `from` where `pat` occurs. */
  function IndexOfFrom(s: string, pat: string, from: nat): (r: Option<nat>)
    requires from <= |s|
    ensures r.Some? ==> from <= r.value && OccursAt(s, pat, r.value)
    ensures r.Some? ==> forall j :: from <= j < r.value ==> !OccursAt(s, pat, j)
    ensures r.None? ==> forall j :: from <= j <= |s| ==> !OccursAt(s, pat, j)
    decreases |s| - from
  {
    if OccursAt(s, pat, from) then Some(from)
    else if from == |s| then None
    else IndexOfFrom(s, pat, from + 1)
  }

  /** `s.replace(pat, rep)` with a string pattern: the first occurrence of
      `pat` is replaced by `rep`; without an occurrence `s` is returned.
      (`rep` is taken literally; none of the replacements used contains `$`.) */
  function ReplaceFirst(s: string, pat: string, rep: string): (r: string)
    ensures forall k: nat :: FirstOccurrence(s, pat, k) ==> r == s[..k] + rep + s[k + |pat|..]
    ensures (forall j :: 0 <= j <= |s| ==> !OccursAt(s, pat, j)) ==> r == s
  {
    match IndexOfFrom(s, pat, 0)
    case Some(k) => s[..k] + rep + s[k + |pat|..]
    case None => s
  }

  /** A single character that does not occur before it is the first occurrence. */
  lemma FirstOccurrenceOfChar(a: string, c: char, b: string)
    requires c !in a
    ensures FirstOccurrence(a + [c] + b, [c], |a|)
  {
    var s := a + [c] + b;
    forall j | 0 <= j < |a|
      ensures !OccursAt(s, [c], j)
    {
      assert s[j] == a[j];
    }
  }

  /** Replacing the first occurrence of a character not found in `a`. */
  lemma ReplaceCharAfter(a: string, c: char, b: string, rep: string)
    requires c !in a
    ensures ReplaceFirst(a + [c] + b, [c], rep) == a + rep + b
  {
    var s := a + [c] + b;
    FirstOccurrenceOfChar(a, c, b);
    assert s[..|a|] == a;
    assert s[|a| + 1..] == b;
  }

  /** Without an occurrence of the character, `replace` changes nothing. */
  lemma ReplaceAbsentChar(s: string, c: char, rep: string)
    requires c !in s
    ensures ReplaceFirst(s, [c], rep) == s
  {
    var found := IndexOfFrom(s, [c], 0);
    if found.Some? {
      OccursAtChar(s, c, found.value);
      assert false;
    }
  }

  /** A pattern whose first character is absent never occurs, so `replace`
      changes nothing. */
  lemma ReplaceAbsentStart(s: string, pat: string, rep: string)
    requires pat != [] && pat[0] !in s
    ensures ReplaceFirst(s, pat, rep) == s
  {
  }

  lemma OccursAtChar(s: string, c: char, k: nat)
    requires OccursAt(s, [c], k)
    ensures k < |s| && s[k] == c
  {
    assert s[k..k + 1][0] == s[k];
  }

  /** A pattern the text starts with is the first occurrence. */
  lemma ReplaceLeading(s: string, pat: string, rep: string)
    requires pat <= s
    ensures ReplaceFirst(s, pat, rep) == rep + s[|pat|..]
  {
    assert s[..|pat|] == pat;
    assert FirstOccurrence(s, pat, 0);
    assert s[..0] + rep == rep;
  }
}
